=== FILE: README.md ===
# Edge History Sanitizer, modelled in Dafny

Edge History Sanitizer is a browser extension. It removes pages from the
browser history as soon as they are visited, if they match one of the user's
rules. A rule has a pattern, a type (`domain` or `keyword`) and an enabled
flag. The extension stores three things in synced storage:

- the rules;
- counters: the number of deletions and the date of the last reset;
- a log of every deletion.

This project models:

- the background worker (`background.js`);
- the CSV export of the options page (`options.js`: `toCSV` and the export
  rows).

Every model is a pure function over an immutable state. The modules are:

- `Text`: ASCII whitespace trimming and ASCII case-insensitive comparison.
- `Regex`: the two regular expressions that `patternToRegex` builds.
  - `escapeRegex` is modelled as a function, and its inverse is proved.
  - The regex body is read back into tokens: a literal character, or `.*` for
    a `*` of a domain pattern.
  - Each expression is given a meaning: `DomainDenotes` for domain rules,
    `KeywordDenotes` for keyword rules.
  - An executable matcher is proved equal to each meaning. `.` in JavaScript
    does not match line terminators, so a `*` never spans one.
- `Rules`: the stored rules and the compiled cache (`compiledRules`).
  - `Active` is `compileRulesFromStorage`: null slots, rules with
    `enabled === false` and rules with an empty trimmed pattern are dropped.
  - `urlMatches` holds exactly when some stored, enabled rule denotes the URL.
- `Store`: the stored state.
  - The migration that `getState` applies to a full-timestamp `lastReset`.
  - The 30-day count of log entries.
- `Background`: the worker as a whole, `Extension(store, compiled)`.
  - Every message handler and event listener is one function from state to
    state.
  - Each one keeps `Synced` (the cache equals `Active` of the stored rules)
    wherever the source recompiles, and no handler breaks it.
  - The worker as the browser loads it starts with an empty cache, and
    `onInstalled` rebuilds it.
- `Csv`: the export.
  - Cell quoting as written.
  - An RFC 4180 field reader, used to state exactly when a cell reads back
    correctly.
  - Joining cells and rows.
  - The decimal timestamp column.
  - Export rows listed newest first.
- `Examples`: concrete matches and scenarios.
  - `example.com` matches its own pages and its subdomains.
  - It does not match `notexample.com`, `example.com.evil.org`, or a `?` right
    after the host.
  - A visit to `https://sub.test.com/path?x=1` is deleted and logged while
    the rule `test.com` is enabled, and kept once it is disabled or once the
    browser has restarted.

All calls into the browser are inputs of the model:

- whether `history.deleteUrl` succeeded;
- the clock (`Date.now()` and today's date);
- `new Date(x).toISOString()`: `reparse`, where `None` means it throws;
- the hostname that `new URL(pageUrl)` yields, where `None` means the
  constructor throws;
- `toLocaleString`.

Four points where the code behaves differently from what one might expect
are modelled as written:

- **CSV quoting.** `String(v).replace('"', '""')` doubles only the first
  quote of a value. Section 2 of RFC 4180 requires every quote inside a
  quoted field to be doubled, so a value with two or more quotes does not read
  back as itself (`CellRoundTrip`).
- **Toggling a rule without an `enabled` field.** Such a rule counts as
  enabled. Toggling it sets `enabled` to `!undefined`, which is `true`, so
  the rule stays enabled. Only a second toggle disables it
  (`ToggleRuleEffect`).
- **Domain patterns stop at the host.** A domain pattern must be followed by
  `/` or by the end of the URL. So `https://example.com?x=1` is not matched
  by `example.com` (`ExampleComRejectsQueryAfterHost`). Neither is a URL
  with a port, such as `http://localhost:8080/` for the pattern `localhost`,
  or `#` right after the host, or a scheme other than `http` and `https`.
  "Add current site" on such a page creates a rule that never matches that
  page (`AddedSiteMatchesItsPages` covers only the pages it does match).
- **The `lastReset` migration.** It fires on a `DDDD-DD-DDT` shape anywhere
  in the string, not only at its start.

One further point looks like a defect and is listed under "## Findings": the
cache is not rebuilt when the browser starts.

## Model

| member | source | states |
|---|---|---|
| Text.Trim | background.js:32 | the result is the input with a run of whitespace removed from each end, and starts and ends with a non-space (or is empty) |
| Text.SpacesFrom | background.js:32 | the run of whitespace found from an index is maximal: all of it is space and the character after it is not |
| Text.SpacesBefore | background.js:32 | the run of whitespace found before an index is maximal: all of it is space and the character before it is not |
| Text.TrimUnchanged | background.js:32 | a text without whitespace at its ends is its own trimming |
| Text.TrimEmptyIff | background.js:32-33 | trimming leaves nothing exactly when the text is all whitespace, which is when `patternToRegex` gives up |
| Regex.EscapeRegex | background.js:30 | every metacharacter of the output is preceded by a backslash, and the length grows by one per metacharacter of the input |
| Regex.UnescapeEscape | background.js:30 | escaping loses nothing: removing the escapes gives the original pattern back |
| Regex.EscapeUnescape | background.js:30 | every well-escaped text is the escaping of exactly one pattern |
| Regex.KeywordBodyReadsLiterally | background.js:39-41 | the keyword expression, read as a regular expression, is the pattern's characters as literals and nothing else |
| Regex.DomainBodyReadsAsGlob | background.js:35-37 | after `\*` becomes `.*`, the domain expression reads as the pattern's literals with a wildcard for each `*` |
| Regex.RestoreStarsRewritesOnlyEscapedStars | background.js:36 | the `\*` to `.*` replacement changes only the backslash of a backslash-star pair, into `.`; every other character stays in place |
| Regex.GlobMatchAgrees | background.js:36 | the executable glob matcher accepts a text exactly when the token sequence matches it (with `.` never crossing a line terminator) |
| Regex.LiteralsMatch | background.js:40 | a literal token sequence matches a text exactly when the text equals the pattern up to ASCII case (flag `i`) |
| Regex.GlobMatchesItself | background.js:36 | every domain pattern matches its own text, each `*` standing for itself |
| Regex.StarFreeGlobIsLiteral | background.js:36 | a domain pattern without `*` compiles to the same tokens as a keyword pattern |
| Regex.PatternEndsFrom | background.js:37 | the search finds a place from which the glob matches up to a `/` or the end of the URL exactly when one exists |
| Regex.HostFrom | background.js:37 | the search finds a slash-free host prefix ending in `.` after which the glob matches up to a boundary exactly when one exists |
| Regex.DomainTest | background.js:37 | the executable domain test holds exactly when the URL splits into `http(s)://`, an optional `label.` prefix, a glob match, and then `/` or the end |
| Regex.SliceFrom | background.js:40 | the search finds an occurrence of the literals at or after the start exactly when there is one |
| Regex.KeywordFrom | background.js:40 | the search finds an occurrence of the literals anywhere in the URL exactly when there is one |
| Regex.KeywordTest | background.js:40 | the executable keyword test holds exactly when the literal tokens occur somewhere in the URL |
| Regex.KeywordMeansSubstring | background.js:40 | a keyword rule matches a URL exactly when the trimmed pattern occurs in it, ignoring ASCII case |
| Regex.SubdomainUrlMatches | background.js:37 | a domain pattern matches `http(s)://` followed by any subdomain prefix, the pattern, and a path or nothing |
| Regex.LiteralSplitShape | background.js:37 | an occurrence of a literal domain pattern starts right after `http://` or `https://` or just after a dot, and is followed by `/` or the end of the URL |
| Regex.StarFreeDomainMatch | background.js:37 | a domain pattern without `*` matches exactly the URLs that split as scheme, optional subdomain prefix, the pattern (up to case), and then `/` or the end |
| Regex.Test | background.js:52 | `regex.test(url)` holds exactly when the compiled expression denotes the URL |
| Rules.TrimmedPattern | background.js:32 | the trimmed pattern is empty exactly when the stored pattern is missing or all whitespace, and otherwise has no whitespace at its ends |
| Rules.PatternToRegex | background.js:31-43 | no expression exactly when the trimmed pattern is empty; otherwise a domain rule's expression reads as the glob and any other type's as the literal pattern |
| Rules.CompiledRuleMeans | background.js:31-43 | a compiled rule's expression matches a URL exactly when the rule (trimmed pattern, type) denotes it |
| Rules.ActiveAppend | background.js:48-50 | `Active` (`compileRulesFromStorage`) works slot by slot and keeps the stored order: compiling a concatenation concatenates the compiled lists |
| Rules.ActiveMembers | background.js:48-50 | an entry is in `Active` of the stored rules exactly when it comes from a non-null, not-disabled stored rule with a non-empty pattern |
| Rules.UrlMatches | background.js:52 | `urlMatches` holds exactly when some compiled entry denotes the URL |
| Rules.UrlMatchesActive | background.js:46-52 | matching against the compiled cache holds exactly when some stored, enabled rule denotes the URL |
| Rules.UrlMatchesAfterAppend | background.js:46-52 | storing one more rule adds exactly the URLs that rule denotes when it is enabled, and no others |
| Store.IsoStampFrom | background.js:10 | the search finds a `DDDD-DD-DDT` position at or after the start exactly when there is one |
| Store.IsIsoDateString | background.js:9-11 | a value counts as a timestamp exactly when `DDDD-DD-DDT` occurs somewhere in it, so shorter strings never do |
| Store.MigrateCounters | background.js:15-22 | the count is kept; a `lastReset` that is not timestamp-shaped, or whose reparse throws, is left unchanged; otherwise it becomes the first ten characters of the reparsed text (all of it when shorter), which are no longer timestamp-shaped |
| Store.Load | background.js:13-28 | reading the state keeps the rules, logs and deletion count, applies the migration to the counters, and returns the state unchanged when `lastReset` is not timestamp-shaped |
| Store.LoadIdempotent | background.js:17-19 | reading the state twice gives the same result as reading it once |
| Store.Last30Count | background.js:114 | the 30-day count never exceeds the number of log entries |
| Store.Last30CountCountsRecent | background.js:113-114 | the 30-day count (`Last30Count`) is the number of log positions whose timestamp is at or after `now - 30 days`, with no upper bound |
| Store.Last30CountAppend | background.js:114 | logging one entry raises the 30-day count by one exactly when that entry is recent |
| Background.Recompile | background.js:46-51 | after recompiling, the cache equals the compiled stored rules and the stored state is what `getState` yields: rules and logs untouched, the count kept and `lastReset` migrated |
| Background.OnStorageChanged | background.js:102-104 | a change to the synced rules resynchronises the cache and leaves the state as `getState` yields it (count kept, `lastReset` migrated); any other change does nothing |
| Background.DeleteIfMatched | background.js:54-65 | a visit that fires raises the count by one, appends exactly `(url, source, now)` to the log and migrates `lastReset`; otherwise nothing changes; the rules and cache are never touched |
| Background.DeletionFollowsRules | background.js:52-65 | with the cache in sync, the state changes exactly when the URL is non-empty, the deletion succeeded and some stored, enabled rule denotes the URL; the 30-day count then rises by one |
| Background.OnInstalled | background.js:95-99 | after installation the cache equals the compiled stored rules, with rules and logs kept, the count kept and `lastReset` migrated |
| Background.LoadedWorkerKeepsVisits | background.js:45-55 | a worker as loaded, with `compiledRules = []` and no rebuild (`onStartup` at line 100 only sets up menus), changes nothing on any visit, even one a rebuilt cache would delete |
| Background.RestartedWorkerFollowsRules | background.js:45-65 | after a start that rebuilds the cache as `onInstalled` does, a visit is deleted and recorded exactly when the URL is non-empty, the deletion succeeds and an enabled stored rule denotes the URL |
| Background.OnVisited | background.js:106 | a visit changes the state exactly when the deletion fires (non-empty URL, a cached regex accepts it, the history call succeeded); it then adds one to the count and appends one entry with source `history.onVisited`, and otherwise nothing changes |
| Background.OnCommitted | background.js:107 | a commit changes the state exactly when it is a top-frame navigation with a URL and the deletion fires; it then adds one to the count and appends one entry with source `webNavigation.onCommitted`, and otherwise nothing changes |
| Background.AppendRule | background.js:83-86 | a rule pushed by a handler lands at the end of the stored list, the cache is resynchronised, and the logs are kept |
| Background.AddRule | background.js:116-122 | the new rule is appended with the given pattern, enabled, with type `domain` exactly when `matchType` is `domain` and `keyword` otherwise; earlier rules and logs are kept, the counters are those of `getState` (count kept, `lastReset` migrated); the cache is in sync |
| Background.AddRuleMatching | background.js:116-121 | after adding a rule, a URL matches exactly when it matched before or the new rule denotes it |
| Background.RemoveRule | background.js:123-130 | a valid index removes that slot and shifts later ones down by one, resynchronising the cache; any other index leaves rules, logs and cache unchanged; in every case the counters are those of `getState` (count kept, `lastReset` migrated) |
| Background.RemoveRuleDropsOnlyThatRule | background.js:123-128 | the cache after removal is the old cache with exactly the removed slot's contribution taken out |
| Background.ToggleRule | background.js:131-138 | a valid index negates that rule's `enabled` and changes no other slot or field, resynchronising the cache; any other index leaves rules, logs and cache unchanged; in every case the counters are those of `getState` (count kept, `lastReset` migrated) |
| Background.Negate | background.js:134 | `!enabled` is true exactly when the flag is not an explicit `true`, so an absent flag gives `true` |
| Background.ToggleRuleEffect | background.js:134 | toggling an explicit flag flips whether the rule is active and twice restores the rules; an absent flag stays enabled after one toggle and is disabled after two |
| Background.DisabledRuleLeavesActiveSet | background.js:48 | after toggling off an enabled rule that has no copy in another slot, no compiled entry comes from that rule |
| Background.ToggleRuleMatching | background.js:131-138 | after a toggle, a URL matches exactly when another stored, enabled rule denotes it, or the toggled rule was disabled or had no flag and denotes it; copies of rules are allowed |
| Background.DisabledRuleStopsMatching | background.js:131-138 | after toggling off an enabled rule, a URL matches exactly when some other stored, enabled rule denotes it, copies of the same rule included |
| Background.ResetCounter | background.js:139-144 | the count becomes zero and `lastReset` today's date; rules, logs and cache are kept |
| Background.ResetCounterIsStable | background.js:142 | a reset date is never mistaken for a timestamp: reading it back changes nothing |
| Background.ClearLogs | background.js:145-147 | the log is emptied and nothing else changes |
| Background.GetState | background.js:111-115 | the reply is the migrated stored state (rules, logs, count kept, `lastReset` migrated), which is also written back, plus the number of log entries within the last 30 days |
| Background.ExportState | background.js:148-151 | the exported state is the migrated stored state, which is also written back: rules, logs and count unchanged, `lastReset` migrated |
| Background.StripWww | background.js:81 | a leading `www.` is removed and nothing else is |
| Background.OnMenuClicked | background.js:77-93 | "Add current site" appends an enabled domain rule for the hostname without `www.`; "Add current URL" appends an enabled keyword rule for the page URL; both go through `getState`, so the count is kept and `lastReset` migrated; with no page URL, an unparsable URL or another item nothing changes |
| Background.DomainRuleMatchesSite | background.js:35-37 | an enabled domain rule for a site denotes every page of the site and of its subdomains |
| Background.DomainRuleMatchesHost | background.js:35-37 | a domain rule for a site denotes pages of every host that ends in `.` followed by the site |
| Background.AddedSiteMatchesItsPages | background.js:81-84 | the rule that "Add current site" creates matches every `http://` or `https://` page of that host (with or without `www.`) or of a subdomain of it, where the host is followed by `/` or the end of the URL; pages with a port, or `?` or `#` after the host, are outside it |
| Background.OnlyDeletionsAndResetsCount | background.js:46-151 | the deletion count rises by one exactly on a visit or top-frame commit whose deletion fires, drops to zero on `resetCounter`, and every other handler, rebuilds included, keeps it |
| Background.HandlersKeepSynced | background.js:46-151 | every event listener and message handler keeps the cache equal to the compiled stored rules, so once the cache is rebuilt it stays in step |
| Examples.ExampleComMatches | background.js:37 | `example.com` matches `https://example.com/` and `https://www.example.com/page` |
| Examples.ExampleComRejectsSuffixedLabel | background.js:37 | `example.com` does not match `https://notexample.com/` |
| Examples.ExampleComRejectsLongerHost | background.js:37 | `example.com` does not match `https://example.com.evil.org/` |
| Examples.ExampleComRejectsQueryAfterHost | background.js:37 | `example.com` does not match `https://example.com?x=1`, because the host must be followed by `/` or the end |
| Examples.EnabledRuleDeletesVisit | background.js:106 | with the enabled rule `test.com`, a successful visit to `https://sub.test.com/path?x=1` is counted and logged |
| Examples.DisabledOnlyRuleIsInactive | background.js:48 | a disabled rule contributes nothing to the cache |
| Examples.DisabledRuleKeepsVisit | background.js:106 | with that rule disabled the same visit changes nothing |
| Examples.RestartedWorkerKeepsVisit | background.js:100 | after a browser restart the worker keeps the visit that the enabled rule `test.com` is meant to delete; a start that rebuilds the cache as `onInstalled` does deletes it |
| Csv.DoubleFirstQuoteSpec | options.js:3 | `DoubleFirstQuote` (`replace` with a string pattern): a value without quotes is unchanged; otherwise the quote at the first quote position is doubled and everything else, later quotes included, is kept |
| Csv.QuoteCell | options.js:3 | every cell starts and ends with a double quote |
| Csv.QuoteCellShape | options.js:3 | a value without quotes sits verbatim between the quotes; a value with quotes gives a cell exactly three characters longer in which only the first quote is doubled |
| Csv.DoubledQuotes | options.js:3 | quoting adds exactly one quote character when the value has any |
| Csv.DoubledReadsBack | options.js:3 | with at most one quote, the quoted text reads back as the value |
| Csv.CellRoundTrip | options.js:3 | an exported cell reads back as its value under RFC 4180 exactly when the value has at most one quote |
| Csv.Cells | options.js:3 | the cells of a row are its values, each quoted, in order |
| Csv.Lines | options.js:3 | the lines are the rows, each written as a CSV line, in order |
| Csv.ToCsv | options.js:3 | no rows give the empty text, and one row gives its line alone |
| Csv.QuoteCellNewlines | options.js:3 | quoting never adds a line break |
| Csv.CsvLineBreaks | options.js:3 | when no value contains a line break, `n` rows produce exactly `n - 1` line breaks: one between consecutive rows, none at the end |
| Csv.NatDigits | options.js:45 | the timestamp text is all digits with no leading zero |
| Csv.DecimalString | options.js:45 | the timestamp text starts with `-` exactly when the timestamp is negative, and is otherwise all digits |
| Csv.DecimalRoundTrip | options.js:45 | the timestamp column reads back as the timestamp, negative ones included |
| Csv.NewestFirst | options.js:29 | the reversal, built by taking the last entry first, puts entry `n-1-k` at position `k` |
| Csv.NewestFirstInvolutive | options.js:29 | reversing the displayed log gives back the stored log |
| Csv.NewestFirstAppend | options.js:29 | a newly logged entry is shown first, ahead of the earlier entries in their displayed order |
| Csv.ExportRows | options.js:44-45 | the export has the header `ts,time_local,url,source` followed by one row per log entry, newest first, with timestamp, local time, URL and source |

## Left out

- Browser APIs, promises and storage writes. Each handler is one
  state-to-state step, so interleavings of concurrent handlers are not
  modelled. Neither are lost updates between `getState` and
  `chrome.storage.sync.set`.
- A failing `chrome.storage.sync.set`. Every write is taken to succeed. In the
  browser the `logs` array only grows, so it eventually passes the sync
  storage per-item quota. From then on the write in `deleteIfMatched` fails
  and the catch at background.js:63 swallows the error: the visit is deleted
  but neither counted nor logged.
- The 300 ms delay before `webNavigation.onCommitted` deletes. Timing is not
  modelled, and the step happens as if the delay were zero.
- The JavaScript regular-expression engine. Only the two expression shapes
  that `patternToRegex` builds are modelled. They are read back into tokens
  and given a matching semantics. `RegExp` syntax errors cannot occur because
  every metacharacter is escaped.
- Case-insensitive matching and `trim()` beyond ASCII. Case folding covers
  `A`-`Z` only. Whitespace is space, tab, LF, CR, VT and FF, without the other
  Unicode spaces JavaScript also trims.
- `Date`, `toISOString`, `toLocaleString` and `new URL`. They are parameters,
  so date arithmetic, time zones and URL parsing are not modelled.
- Values of the wrong JavaScript type. A non-string pattern, a non-number
  `index`, a non-integer index or a non-string `lastReset` is not modelled.
  Indices are integers, and `lastReset` is a string.
- The options page's DOM, `Blob` download and `send`. The add form trims the
  pattern and drops an empty one before it sends `addRule` (options.js:57-59).
  The model starts at the message, which the worker takes as it comes,
  untrimmed.
- `setupContextMenus`, the action button, and the menu and options-page calls
  in `onInstalled`. These create menus or open pages and do not touch the
  state. `onInstalled`'s cache rebuild is modelled (`OnInstalled`), and so is
  `onStartup`, which leaves the state alone (`LoadedWorkerKeepsVisits`).
- Store.Load: the `getState` call at the start of `resetCounter`
  (background.js:140) is not modelled. The reset replaces both counters, and
  `getState` changes nothing else, so the outcome is the same.
- Csv.DecimalString: `String(number)` switches to exponent notation at
  `1e21` and prints fractions. Timestamps are modelled as integers in plain
  decimal.
- Background.ResetCounter: takes today's ten-character date as input instead
  of computing it.
- Background.OnMenuClicked: `hostname` is what `new URL(pageUrl).hostname`
  returns. The relation between the page URL and its hostname is not
  modelled.

## Findings

| source | as written | input that shows it | evidently intended | confidence | as-written member | corrected member |
|---|---|---|---|---|---|---|
| background.js:100 | `compiledRules` starts as `[]` (line 45) whenever the worker is loaded, and only `onInstalled` rebuilds it; `onStartup` only sets up menus, so after a browser restart every visit returns at the empty-cache check of `deleteIfMatched` until some rule changes; `chrome.action` makes the worker an event-driven service worker, so the same happens each time it is reloaded after an idle stop | stored rules `[{pattern: "test.com", type: "domain", enabled: true}]`, browser restarted, then a visit to `https://sub.test.com/path?x=1` whose deletion would succeed: the visit stays in the history | rebuild the cache whenever the worker starts, as `onInstalled` does, so that enabled stored rules are always in force | high, not executed | Background.LoadedWorkerKeepsVisits | Background.RestartedWorkerFollowsRules |

=== FILE: background.dfy ===
/**
 * The service worker: the persisted state together with its cached active
 * rule set, the two visit events feeding `deleteIfMatched`, the message
 * commands and the context-menu actions. Every handler is one atomic step.
 * Browser calls become parameters: `deleted` is the outcome of
 * `history.deleteUrl`, `now` is `Date.now()`, `today` is the current
 * YYYY-MM-DD date and `reparse` is `new Date(x).toISOString()` (see Store.Load).
 */
module Background {
  import opened Optional
  import opened Text
  import opened Regex
  import opened Rules
  import opened Store

  /** The stored state and the module-level `compiledRules` cache. */
  datatype Extension = Extension(store: State, compiled: seq<CompiledRule>)

  /** The cache holds exactly the active set of the stored rules. */
  predicate Synced(e: Extension)
  {
    e.compiled == Active(e.store.rules)
  }

  /** `compileRulesFromStorage`: read the state (migrating it) and rebuild the cache from scratch. */
  function Recompile(e: Extension, reparse: string -> Option<string>): (r: Extension)
    ensures Synced(r)
    ensures r.store.rules == e.store.rules && r.store.logs == e.store.logs
    ensures r.store == Load(e.store, reparse)
  {
    var st := Load(e.store, reparse);
    Extension(st, Active(st.rules))
  }

  /** `storage.onChanged`: a change of the synced `rules` key rebuilds the cache. */
  function OnStorageChanged(e: Extension, area: string, rulesChanged: bool,
                            reparse: string -> Option<string>): (r: Extension)
    ensures area == "sync" && rulesChanged ==> Synced(r)
    ensures !(area == "sync" && rulesChanged) ==> r == e
    ensures area == "sync" && rulesChanged ==> r.store == Load(e.store, reparse)
    ensures r.store.rules == e.store.rules
  {
    if area == "sync" && rulesChanged then Recompile(e, reparse) else e
  }

  /** A deletion takes place: non-empty URL, some cached regex accepts it, and the history call succeeded. */
  ghost predicate Fires(e: Extension, url: string, deleted: bool)
  {
    url != [] && deleted && exists i :: 0 <= i < |e.compiled| && Denotes(e.compiled[i].regex, url)
  }

  /**
   * `deleteIfMatched`: nothing happens for an empty URL, an empty cache, a URL
   * no cached regex accepts, or a failed deletion. Otherwise the state is read
   * again, the counter goes up by one and one entry is appended to the log;
   * the rules and the cache are untouched.
   */
  function DeleteIfMatched(e: Extension, url: string, source: string, deleted: bool, now: int,
                           reparse: string -> Option<string>): (r: Extension)
    ensures r.store.rules == e.store.rules && r.compiled == e.compiled
    ensures !Fires(e, url, deleted) ==> r == e
    ensures Fires(e, url, deleted) ==>
              && r.store.counters.deletedCount == e.store.counters.deletedCount + 1
              && r.store.counters.lastReset == MigrateCounters(e.store.counters, reparse).lastReset
              && r.store.logs == e.store.logs + [LogEntry(url, source, now)]
  {
    if url == [] || |e.compiled| == 0 then e
    else if !UrlMatches(e.compiled, url) then e
    else if !deleted then e
    else
      var st := Load(e.store, reparse);
      var counters := st.counters.(deletedCount := st.counters.deletedCount + 1);
      e.(store := st.(counters := counters, logs := st.logs + [LogEntry(url, source, now)]))
  }

  /** Some non-null, enabled stored rule is meant to match `url`. */
  ghost predicate SomeRuleDenotes(rules: seq<Option<Rule>>, url: string)
  {
    exists i :: 0 <= i < |rules| && rules[i].Some? && IsEnabled(rules[i].value) && RuleDenotes(rules[i].value, url)
  }

  /**
   * With the cache in step with storage, a visit is recorded exactly when the
   * URL is non-empty, the deletion succeeded and some non-null enabled stored
   * rule is meant to match it; the recorded entry is also counted by
   * `last30Count` at the same instant.
   */
  lemma DeletionFollowsRules(e: Extension, url: string, source: string, deleted: bool, now: int,
                             reparse: string -> Option<string>)
    requires Synced(e)
    ensures var r := DeleteIfMatched(e, url, source, deleted, now, reparse);
            r != e <==>
              url != [] && deleted && SomeRuleDenotes(e.store.rules, url)
    ensures var r := DeleteIfMatched(e, url, source, deleted, now, reparse);
            r != e ==> Last30Count(r.store.logs, now) == Last30Count(e.store.logs, now) + 1
  {
    UrlMatchesActive(e.store.rules, url);
    var r := DeleteIfMatched(e, url, source, deleted, now, reparse);
    if Fires(e, url, deleted) {
      assert r.store.counters.deletedCount != e.store.counters.deletedCount;
      Last30CountAppend(e.store.logs, LogEntry(url, source, now), now);
    }
  }

  /**
   * The worker as the browser loads it: whatever is stored, and the
   * module-level `compiledRules = []`.
   */
  function Loaded(st: State): Extension
  {
    Extension(st, [])
  }

  /** `runtime.onInstalled`: the cache is rebuilt from storage (the menus and the options page are left out). */
  function OnInstalled(e: Extension, reparse: string -> Option<string>): (r: Extension)
    ensures Synced(r)
    ensures r.store.rules == e.store.rules && r.store.logs == e.store.logs
    ensures r.store.counters == MigrateCounters(e.store.counters, reparse)
  {
    Recompile(e, reparse)
  }

  /**
   * `runtime.onStartup` only sets up the menus, so a worker loaded at browser
   * start keeps its empty cache: `deleteIfMatched` returns at once on every
   * visit, even one that an enabled stored rule is meant to match and that a
   * rebuilt cache would delete.
   */
  lemma LoadedWorkerKeepsVisits(st: State, url: string, source: string, deleted: bool, now: int,
                                reparse: string -> Option<string>)
    ensures DeleteIfMatched(Loaded(st), url, source, deleted, now, reparse) == Loaded(st)
    ensures url != [] && deleted && SomeRuleDenotes(st.rules, url) ==>
              var w := OnInstalled(Loaded(st), reparse);
              DeleteIfMatched(w, url, source, deleted, now, reparse) != w
  {
    var w := OnInstalled(Loaded(st), reparse);
    DeletionFollowsRules(w, url, source, deleted, now, reparse);
  }

  /**
   * A start that rebuilds the cache, as `onInstalled` does, puts the stored
   * rules in force: afterwards a visit is deleted and recorded exactly when the
   * URL is non-empty, the deletion succeeds and an enabled stored rule is
   * meant to match it.
   */
  lemma RestartedWorkerFollowsRules(st: State, url: string, source: string, deleted: bool, now: int,
                                    reparse: string -> Option<string>)
    ensures var w := OnInstalled(Loaded(st), reparse);
            DeleteIfMatched(w, url, source, deleted, now, reparse) != w <==>
              url != [] && deleted && SomeRuleDenotes(st.rules, url)
  {
    var w := OnInstalled(Loaded(st), reparse);
    DeletionFollowsRules(w, url, source, deleted, now, reparse);
  }

  /** `history.onVisited`: every visit goes to `deleteIfMatched`, tagged with its source. */
  function OnVisited(e: Extension, url: string, deleted: bool, now: int,
                     reparse: string -> Option<string>): (r: Extension)
    ensures r.store.rules == e.store.rules && r.compiled == e.compiled
    ensures r.store.logs == e.store.logs || r.store.logs == e.store.logs + [LogEntry(url, "history.onVisited", now)]
    ensures r != e <==> Fires(e, url, deleted)
    ensures Fires(e, url, deleted) ==>
              && r.store.counters.deletedCount == e.store.counters.deletedCount + 1
              && r.store.logs == e.store.logs + [LogEntry(url, "history.onVisited", now)]
  {
    DeleteIfMatched(e, url, "history.onVisited", deleted, now, reparse)
  }

  /**
   * `webNavigation.onCommitted`: only a top-frame (`frameId == 0`) commit with
   * a URL goes to `deleteIfMatched`; the 300 ms delay is not modelled.
   */
  function OnCommitted(e: Extension, url: string, frameId: int, deleted: bool, now: int,
                       reparse: string -> Option<string>): (r: Extension)
    ensures frameId != 0 || url == [] ==> r == e
    ensures r.store.rules == e.store.rules && r.compiled == e.compiled
    ensures r.store.logs == e.store.logs
            || r.store.logs == e.store.logs + [LogEntry(url, "webNavigation.onCommitted", now)]
    ensures r != e <==> url != [] && frameId == 0 && Fires(e, url, deleted)
    ensures url != [] && frameId == 0 && Fires(e, url, deleted) ==>
              && r.store.counters.deletedCount == e.store.counters.deletedCount + 1
              && r.store.logs == e.store.logs + [LogEntry(url, "webNavigation.onCommitted", now)]
  {
    if url != [] && frameId == 0 then
      DeleteIfMatched(e, url, "webNavigation.onCommitted", deleted, now, reparse)
    else e
  }

  /** Read the state, push one rule, write the rules back and rebuild the cache. */
  function AppendRule(e: Extension, rule: Rule, reparse: string -> Option<string>): (r: Extension)
    ensures Synced(r)
    ensures r.store.rules == e.store.rules + [Some(rule)]
    ensures r.store.logs == e.store.logs
    ensures r.store.counters == MigrateCounters(e.store.counters, reparse)
  {
    var st := Load(e.store, reparse);
    var rules := st.rules + [Some(rule)];
    Extension(st.(rules := rules), Active(rules))
  }

  /**
   * The `addRule` message: exactly one rule `{pattern, type, enabled: true}`
   * is appended, of type "domain" when `matchType` is "domain" and "keyword"
   * otherwise, with no trimming and no de-duplication; earlier rules stay.
   */
  function AddRule(e: Extension, pattern: string, matchType: string,
                   reparse: string -> Option<string>): (r: Extension)
    ensures Synced(r)
    ensures |r.store.rules| == |e.store.rules| + 1
    ensures r.store.rules[..|e.store.rules|] == e.store.rules
    ensures r.store.rules[|e.store.rules|].Some?
    ensures r.store.rules[|e.store.rules|].value.pattern == Some(pattern)
    ensures r.store.rules[|e.store.rules|].value.enabled == Some(true)
    ensures r.store.rules[|e.store.rules|].value.kind == "domain" <==> matchType == "domain"
    ensures matchType != "domain" ==> r.store.rules[|e.store.rules|].value.kind == "keyword"
    ensures r.store.logs == e.store.logs
    ensures r.store.counters.deletedCount == e.store.counters.deletedCount
    ensures r.store.counters == MigrateCounters(e.store.counters, reparse)
  {
    var kind := if matchType == "domain" then "domain" else "keyword";
    var r := AppendRule(e, Rule(Some(pattern), kind, Some(true)), reparse);
    assert r.store.rules[..|e.store.rules|] == e.store.rules;
    r
  }

  /** After `addRule`, a URL matches exactly when it matched before or the new rule is meant to match it. */
  lemma AddRuleMatching(e: Extension, pattern: string, matchType: string,
                        reparse: string -> Option<string>, url: string)
    requires Synced(e)
    ensures var r := AddRule(e, pattern, matchType, reparse);
            UrlMatches(r.compiled, url) <==>
              UrlMatches(e.compiled, url) || RuleDenotes(r.store.rules[|e.store.rules|].value, url)
  {
    var r := AddRule(e, pattern, matchType, reparse);
    var rules := e.store.rules;
    var added := r.store.rules[|rules|];
    assert r.store.rules == rules + [added];
    UrlMatchesAfterAppend(rules, added.value, url);
  }

  /** `rules[msg.index]` is a rule: a non-negative index in range holding a non-null slot. */
  predicate ValidIndex(rules: seq<Option<Rule>>, index: int)
  {
    0 <= index < |rules| && rules[index].Some?
  }

  /**
   * The `removeRule` message: a valid index is deleted and later rules shift
   * down by one; an out-of-range index or a null slot leaves the rules alone.
   */
  function RemoveRule(e: Extension, index: int, reparse: string -> Option<string>): (r: Extension)
    ensures ValidIndex(e.store.rules, index) ==>
              && Synced(r)
              && |r.store.rules| == |e.store.rules| - 1
              && (forall j :: 0 <= j < index ==> r.store.rules[j] == e.store.rules[j])
              && (forall j :: index <= j < |r.store.rules| ==> r.store.rules[j] == e.store.rules[j + 1])
    ensures !ValidIndex(e.store.rules, index) ==>
              r.store.rules == e.store.rules && r.compiled == e.compiled
    ensures r.store.logs == e.store.logs
    ensures r.store.counters.deletedCount == e.store.counters.deletedCount
    ensures r.store.counters == MigrateCounters(e.store.counters, reparse)
  {
    var st := Load(e.store, reparse);
    if ValidIndex(st.rules, index) then
      var rules := st.rules[..index] + st.rules[index + 1..];
      Extension(st.(rules := rules), Active(rules))
    else e.(store := st)
  }

  /**
   * Removing a rule drops exactly that rule's contribution to the active set:
   * the active entries before and after it stay, in order.
   */
  lemma RemoveRuleDropsOnlyThatRule(e: Extension, index: int, reparse: string -> Option<string>)
    requires Synced(e) && ValidIndex(e.store.rules, index)
    ensures var rules := e.store.rules;
            && e.compiled == Active(rules[..index]) + Active([rules[index]]) + Active(rules[index + 1..])
            && RemoveRule(e, index, reparse).compiled == Active(rules[..index]) + Active(rules[index + 1..])
  {
    var rules := e.store.rules;
    assert rules == rules[..index] + ([rules[index]] + rules[index + 1..]);
    ActiveAppend(rules[..index], [rules[index]] + rules[index + 1..]);
    ActiveAppend([rules[index]], rules[index + 1..]);
    ActiveAppend(rules[..index], rules[index + 1..]);
  }

  /** `!enabled` in JavaScript: an absent flag is falsy, so it becomes `true`. */
  function Negate(enabled: Option<bool>): (r: bool)
    ensures r <==> enabled != Some(true)
  {
    match enabled
    case None => true
    case Some(b) => !b
  }

  /**
   * The `toggleRule` message: at a valid index only that rule's `enabled`
   * changes, to its negation (an absent flag becomes `true`); otherwise the
   * rules are left alone.
   */
  function ToggleRule(e: Extension, index: int, reparse: string -> Option<string>): (r: Extension)
    ensures ValidIndex(e.store.rules, index) ==>
              && Synced(r)
              && |r.store.rules| == |e.store.rules|
              && (forall j :: 0 <= j < |r.store.rules| && j != index ==> r.store.rules[j] == e.store.rules[j])
              && r.store.rules[index].Some?
              && r.store.rules[index].value.pattern == e.store.rules[index].value.pattern
              && r.store.rules[index].value.kind == e.store.rules[index].value.kind
              && r.store.rules[index].value.enabled == Some(Negate(e.store.rules[index].value.enabled))
    ensures !ValidIndex(e.store.rules, index) ==>
              r.store.rules == e.store.rules && r.compiled == e.compiled
    ensures r.store.logs == e.store.logs
    ensures r.store.counters.deletedCount == e.store.counters.deletedCount
    ensures r.store.counters == MigrateCounters(e.store.counters, reparse)
  {
    var st := Load(e.store, reparse);
    if ValidIndex(st.rules, index) then
      var rule := st.rules[index].value;
      var rules := st.rules[index := Some(rule.(enabled := Some(Negate(rule.enabled))))];
      Extension(st.(rules := rules), Active(rules))
    else e.(store := st)
  }

  /**
   * Toggling a rule with an explicit flag flips whether it is enabled, and
   * toggling twice restores the stored rules; a rule without the flag counts
   * as enabled and is still enabled after one toggle, and disabled after two.
   */
  lemma ToggleRuleEffect(e: Extension, index: int, reparse: string -> Option<string>)
    requires ValidIndex(e.store.rules, index)
    ensures var r := ToggleRule(e, index, reparse);
            var before := e.store.rules[index].value;
            var after := r.store.rules[index].value;
            && (before.enabled.Some? ==> IsEnabled(after) == !IsEnabled(before))
            && (before.enabled.Some? ==> ToggleRule(r, index, reparse).store.rules == e.store.rules)
            && (before.enabled.None? ==> IsEnabled(before) && IsEnabled(after))
            && (before.enabled.None? ==> !IsEnabled(ToggleRule(r, index, reparse).store.rules[index].value))
  {
    var r := ToggleRule(e, index, reparse);
    var r2 := ToggleRule(r, index, reparse);
    assert ValidIndex(r.store.rules, index);
    if e.store.rules[index].value.enabled.Some? {
      assert r2.store.rules[index] == e.store.rules[index];
      assert r2.store.rules == e.store.rules;
    }
  }

  /** Some stored slot other than `index` holds an enabled rule meant to match `url`. */
  ghost predicate OtherRuleDenotes(rules: seq<Option<Rule>>, index: int, url: string)
  {
    exists j :: 0 <= j < |rules| && j != index && rules[j].Some?
                && IsEnabled(rules[j].value) && RuleDenotes(rules[j].value, url)
  }

  /**
   * After `toggleRule`, a URL matches exactly when another stored rule is
   * meant to match it, or the toggled rule now ends up enabled (it was
   * disabled or had no flag) and is meant to match it. Duplicate rules are
   * allowed.
   */
  lemma ToggleRuleMatching(e: Extension, index: int, reparse: string -> Option<string>, url: string)
    requires ValidIndex(e.store.rules, index)
    ensures UrlMatches(ToggleRule(e, index, reparse).compiled, url) <==>
              OtherRuleDenotes(e.store.rules, index, url)
              || (e.store.rules[index].value.enabled != Some(true) && RuleDenotes(e.store.rules[index].value, url))
  {
    var r := ToggleRule(e, index, reparse);
    var rules := r.store.rules;
    UrlMatchesActive(rules, url);
    var old_rule := e.store.rules[index].value;
    var new_rule := rules[index].value;
    assert TrimmedPattern(new_rule) == TrimmedPattern(old_rule);
    assert RuleDenotes(new_rule, url) == RuleDenotes(old_rule, url);
    assert IsEnabled(new_rule) <==> old_rule.enabled != Some(true);
    if OtherRuleDenotes(e.store.rules, index, url) {
      var j :| 0 <= j < |e.store.rules| && j != index && e.store.rules[j].Some?
               && IsEnabled(e.store.rules[j].value) && RuleDenotes(e.store.rules[j].value, url);
      assert rules[j] == e.store.rules[j];
    }
  }

  /**
   * Turning off an enabled rule leaves only the other stored rules matching,
   * whether or not one of them is a copy of it.
   */
  lemma DisabledRuleStopsMatching(e: Extension, index: int, reparse: string -> Option<string>, url: string)
    requires ValidIndex(e.store.rules, index)
    requires e.store.rules[index].value.enabled == Some(true)
    ensures UrlMatches(ToggleRule(e, index, reparse).compiled, url) <==> OtherRuleDenotes(e.store.rules, index, url)
  {
    ToggleRuleMatching(e, index, reparse, url);
  }

  /**
   * Disabling a rule takes it out of matching at once: after the rebuild no
   * active entry carries it, while it stays in the stored list.
   */
  lemma DisabledRuleLeavesActiveSet(e: Extension, index: int, reparse: string -> Option<string>, c: CompiledRule)
    requires ValidIndex(e.store.rules, index)
    requires e.store.rules[index].value.enabled == Some(true)
    requires forall j :: 0 <= j < |e.store.rules| && j != index ==> e.store.rules[j] != e.store.rules[index]
    ensures var r := ToggleRule(e, index, reparse);
            r.store.rules[index].value.pattern == e.store.rules[index].value.pattern
            && (c in r.compiled ==> c.rule != e.store.rules[index].value)
  {
    var r := ToggleRule(e, index, reparse);
    ActiveMembers(r.store.rules, c);
    if c in r.compiled {
      var i :| 0 <= i < |r.store.rules| && r.store.rules[i] == Some(c.rule) && IsEnabled(c.rule);
      if i != index {
        assert r.store.rules[i] == e.store.rules[i];
      }
    }
  }

  /**
   * The `resetCounter` message: the count is zero and `lastReset` is the given
   * ten-character date; rules, logs and cache are untouched.
   */
  function ResetCounter(e: Extension, today: string): (r: Extension)
    requires |today| == 10
    ensures r.store.counters == Counters(0, today)
    ensures r.store.rules == e.store.rules && r.store.logs == e.store.logs && r.compiled == e.compiled
  {
    e.(store := e.store.(counters := Counters(0, today)))
  }

  /** After a reset the date is never taken for a timestamp: reading it back changes nothing. */
  lemma ResetCounterIsStable(e: Extension, today: string, reparse: string -> Option<string>)
    requires |today| == 10
    ensures var r := ResetCounter(e, today);
            !IsIsoDateString(r.store.counters.lastReset) && Load(r.store, reparse) == r.store
  {
  }

  /** The `clearLogs` message: the log is emptied and nothing else changes. */
  function ClearLogs(e: Extension): (r: Extension)
    ensures r.store.logs == []
    ensures r.store.rules == e.store.rules && r.store.counters == e.store.counters && r.compiled == e.compiled
  {
    e.(store := e.store.(logs := []))
  }

  /** The reply to `getState`: the state as read plus `last30Count`. */
  datatype Reply = Reply(state: State, last30Count: nat)

  /**
   * The `getState` message: the migrated state (also written back) and the
   * number of log entries at or after `now` minus thirty days.
   */
  function GetState(e: Extension, now: int, reparse: string -> Option<string>): (r: (Extension, Reply))
    ensures r.0.store == r.1.state && r.0.compiled == e.compiled
    ensures r.1.state.rules == e.store.rules && r.1.state.logs == e.store.logs
    ensures r.1.last30Count <= |e.store.logs|
    ensures r.1.last30Count == |set i | 0 <= i < |e.store.logs| && Recent(e.store.logs[i], now)|
    ensures r.1.state == Load(e.store, reparse)
  {
    var st := Load(e.store, reparse);
    Last30CountCountsRecent(st.logs, now);
    (e.(store := st), Reply(st, Last30Count(st.logs, now)))
  }

  /** The `exportState` message: the migrated state (also written back). */
  function ExportState(e: Extension, reparse: string -> Option<string>): (r: (Extension, State))
    ensures r.0.store == r.1 && r.0.compiled == e.compiled
    ensures r.1.rules == e.store.rules && r.1.logs == e.store.logs
    ensures r.1.counters.deletedCount == e.store.counters.deletedCount
    ensures r.1 == Load(e.store, reparse)
  {
    var st := Load(e.store, reparse);
    (e.(store := st), st)
  }

  /** `hostname.replace(/^www\./, '')`: at most one leading `www.` is removed. */
  function StripWww(host: string): (r: string)
    ensures HasPrefix(host, "www.") ==> host == "www." + r
    ensures !HasPrefix(host, "www.") ==> r == host
  {
    if HasPrefix(host, "www.") then host[4..] else host
  }

  /**
   * A context-menu click. The page URL is `info.pageUrl`, else the tab's URL
   * (an empty string stands for an absent one); `hostname` is the parsed
   * URL's host, `None` when `new URL` throws. "Add current site" appends a
   * domain rule for the host without its `www.`; "Add current URL" appends a
   * keyword rule for the whole URL; any other item does nothing.
   */
  function OnMenuClicked(e: Extension, menuItemId: string, infoPageUrl: string, tabUrl: string,
                         hostname: Option<string>, reparse: string -> Option<string>): (r: Extension)
    ensures var pageUrl := if infoPageUrl != [] then infoPageUrl else tabUrl;
            if pageUrl != [] && hostname.Some? && menuItemId == "ehs-add-domain" then
              && Synced(r)
              && r.store.rules == e.store.rules + [Some(Rule(Some(StripWww(hostname.value)), "domain", Some(true)))]
              && r.store.counters == MigrateCounters(e.store.counters, reparse)
            else if pageUrl != [] && hostname.Some? && menuItemId == "ehs-add-keyword" then
              && Synced(r)
              && r.store.rules == e.store.rules + [Some(Rule(Some(pageUrl), "keyword", Some(true)))]
              && r.store.counters == MigrateCounters(e.store.counters, reparse)
            else r == e
    ensures r.store.logs == e.store.logs
  {
    var pageUrl := if infoPageUrl != [] then infoPageUrl else tabUrl;
    if pageUrl == [] || hostname.None? then e
    else if menuItemId == "ehs-add-domain" then
      AppendRule(e, Rule(Some(StripWww(hostname.value)), "domain", Some(true)), reparse)
    else if menuItemId == "ehs-add-keyword" then
      AppendRule(e, Rule(Some(pageUrl), "keyword", Some(true)), reparse)
    else e
  }

  /**
   * Every handler keeps the cache in step with storage. So once the cache has
   * been rebuilt, by `onInstalled` or a rebuilding start, `Synced` holds in
   * every later state, and the lemmas that assume it apply there.
   */
  lemma HandlersKeepSynced(e: Extension, url: string, frameId: int, deleted: bool, now: int,
                           area: string, rulesChanged: bool, pattern: string, matchType: string,
                           index: int, today: string, menuItemId: string, infoPageUrl: string,
                           tabUrl: string, hostname: Option<string>, reparse: string -> Option<string>)
    requires Synced(e) && |today| == 10
    ensures Synced(OnVisited(e, url, deleted, now, reparse))
    ensures Synced(OnCommitted(e, url, frameId, deleted, now, reparse))
    ensures Synced(OnStorageChanged(e, area, rulesChanged, reparse))
    ensures Synced(AddRule(e, pattern, matchType, reparse))
    ensures Synced(RemoveRule(e, index, reparse))
    ensures Synced(ToggleRule(e, index, reparse))
    ensures Synced(ResetCounter(e, today))
    ensures Synced(ClearLogs(e))
    ensures Synced(GetState(e, now, reparse).0)
    ensures Synced(ExportState(e, reparse).0)
    ensures Synced(OnMenuClicked(e, menuItemId, infoPageUrl, tabUrl, hostname, reparse))
  {
  }

  /**
   * The deletion count moves in exactly two ways: a visit or top-frame commit
   * that fires adds one, and `resetCounter` sets it to zero. Every other
   * handler, a cache rebuild included, keeps it.
   */
  lemma OnlyDeletionsAndResetsCount(e: Extension, url: string, frameId: int, deleted: bool, now: int,
                                    area: string, rulesChanged: bool, pattern: string, matchType: string,
                                    index: int, today: string, menuItemId: string, infoPageUrl: string,
                                    tabUrl: string, hostname: Option<string>, reparse: string -> Option<string>)
    requires |today| == 10
    ensures var n := e.store.counters.deletedCount;
            && OnVisited(e, url, deleted, now, reparse).store.counters.deletedCount
               == (if Fires(e, url, deleted) then n + 1 else n)
            && OnCommitted(e, url, frameId, deleted, now, reparse).store.counters.deletedCount
               == (if url != [] && frameId == 0 && Fires(e, url, deleted) then n + 1 else n)
            && ResetCounter(e, today).store.counters.deletedCount == 0
    ensures var n := e.store.counters.deletedCount;
            && OnInstalled(e, reparse).store.counters.deletedCount == n
            && OnStorageChanged(e, area, rulesChanged, reparse).store.counters.deletedCount == n
            && AddRule(e, pattern, matchType, reparse).store.counters.deletedCount == n
            && RemoveRule(e, index, reparse).store.counters.deletedCount == n
            && ToggleRule(e, index, reparse).store.counters.deletedCount == n
            && ClearLogs(e).store.counters.deletedCount == n
            && GetState(e, now, reparse).0.store.counters.deletedCount == n
            && ExportState(e, reparse).0.store.counters.deletedCount == n
            && OnMenuClicked(e, menuItemId, infoPageUrl, tabUrl, hostname, reparse).store.counters.deletedCount == n
  {
  }

  /**
   * A domain rule whose pattern is its own trim matches `http://` or
   * `https://`, any subdomain prefix, the pattern, and a path or nothing.
   */
  lemma DomainRuleMatchesSite(site: string, scheme: string, sub: string, rest: string)
    requires scheme == "http://" || scheme == "https://"
    requires IsHostPrefix(sub) && (rest == [] || rest[0] == '/')
    requires site != [] && Trim(site) == site
    ensures RuleDenotes(Rule(Some(site), "domain", Some(true)), scheme + sub + site + rest)
  {
    SubdomainUrlMatches(site, scheme + sub + site + rest, scheme, sub, rest);
  }

  /** The same, for a host written as a subdomain prefix followed by the pattern. */
  lemma DomainRuleMatchesHost(site: string, scheme: string, host: string, pre: string, rest: string)
    requires scheme == "http://" || scheme == "https://"
    requires rest == [] || rest[0] == '/'
    requires host == pre + site && IsHostPrefix(pre)
    requires site != [] && Trim(site) == site
    ensures RuleDenotes(Rule(Some(site), "domain", Some(true)), scheme + host + rest)
  {
    ConcatHost(scheme, host, pre, site, rest);
    DomainRuleMatchesSite(site, scheme, pre, rest);
  }

  lemma ConcatHost(scheme: string, host: string, pre: string, site: string, rest: string)
    requires host == pre + site
    ensures scheme + host + rest == scheme + pre + site + rest
  {
  }

  /** The `www.` that `StripWww` removes is a valid subdomain prefix. */
  lemma StripWwwSplits(host: string)
    ensures var pre := if HasPrefix(host, "www.") then "www." else "";
            host == pre + StripWww(host) && IsHostPrefix(pre)
  {
  }

  /**
   * The domain rule "Add current site" creates matches every `http://` or
   * `https://` page of that host, with or without its `www.`, and of its
   * subdomains, where the host is followed by `/` or the end of the URL. A
   * page with a port, or a `?` or `#` right after the host, or another
   * scheme is not matched by its own rule.
   */
  lemma AddedSiteMatchesItsPages(scheme: string, host: string, sub: string, rest: string)
    requires scheme == "http://" || scheme == "https://"
    requires IsHostPrefix(sub) && (rest == [] || rest[0] == '/')
    requires StripWww(host) != [] && Trim(StripWww(host)) == StripWww(host)
    ensures RuleDenotes(Rule(Some(StripWww(host)), "domain", Some(true)), scheme + host + rest)
    ensures RuleDenotes(Rule(Some(StripWww(host)), "domain", Some(true)), scheme + sub + StripWww(host) + rest)
  {
    var site := StripWww(host);
    DomainRuleMatchesSite(site, scheme, sub, rest);
    StripWwwSplits(host);
    var pre := if HasPrefix(host, "www.") then "www." else "";
    DomainRuleMatchesHost(site, scheme, host, pre, rest);
  }
}

=== FILE: csv.dfy ===
/**
 * The log export of the options page: `toCSV`, the export rows (header plus
 * the log newest first) and `String(ts)` for the timestamp column.
 */
module Csv {
  import opened Optional
  import opened Store

  /** Number of occurrences of `c` in `s`. */
  function Count(c: char, s: string): nat
  {
    if |s| == 0 then 0 else (if s[0] == c then 1 else 0) + Count(c, s[1..])
  }

  lemma {:induction false} CountAppend(c: char, a: string, b: string)
    ensures Count(c, a + b) == Count(c, a) + Count(c, b)
  {
    if |a| > 0 {
      assert (a + b)[1..] == a[1..] + b;
      CountAppend(c, a[1..], b);
    } else {
      assert a + b == b;
    }
  }

  /** All characters of `s` differ from `c` exactly when `c` occurs zero times. */
  lemma {:induction false} CountZero(c: char, s: string)
    ensures Count(c, s) == 0 <==> forall k :: 0 <= k < |s| ==> s[k] != c
  {
    if |s| > 0 {
      CountZero(c, s[1..]);
      if forall k :: 0 <= k < |s| ==> s[k] != c {
        forall k | 0 <= k < |s[1..]| ensures s[1..][k] != c {
          assert s[1..][k] == s[k + 1];
        }
      }
      if Count(c, s) == 0 {
        forall k | 0 <= k < |s| ensures s[k] != c {
          if k > 0 {
            assert s[k] == s[1..][k - 1];
          }
        }
      }
    }
  }

  /** `s.indexOf(c, from)`, with `|s|` for "not found". */
  function IndexOf(s: string, c: char, from: nat): (i: nat)
    requires from <= |s|
    ensures from <= i <= |s|
    ensures forall k :: from <= k < i ==> s[k] != c
    ensures i < |s| ==> s[i] == c
    decreases |s| - from
  {
    if from == |s| || s[from] == c then from else IndexOf(s, c, from + 1)
  }

  lemma SplitAt(v: string, i: nat)
    requires i < |v|
    ensures v == v[..i] + ([v[i]] + v[i + 1..])
  {
  }

  /** The value split around its first quote, when it has one. */
  lemma FirstQuoteSplit(v: string, i: nat)
    requires i == IndexOf(v, '"', 0) && i < |v|
    ensures v == v[..i] + ([v[i]] + v[i + 1..])
    ensures Count('"', v[..i]) == 0
    ensures Count('"', v) == 1 + Count('"', v[i + 1..])
  {
    SplitAt(v, i);
    CountZero('"', v[..i]);
    CountAppend('"', v[..i], [v[i]] + v[i + 1..]);
    CountAppend('"', [v[i]], v[i + 1..]);
  }

  /** A value in which the search finds no quote has none. */
  lemma NoQuoteFound(v: string)
    requires IndexOf(v, '"', 0) == |v|
    ensures Count('"', v) == 0
  {
    CountZero('"', v);
  }

  /** `String(v).replace('"', '""')`: a string pattern replaces its first occurrence only. */
  function DoubleFirstQuote(v: string): string
  {
    var i := IndexOf(v, '"', 0);
    if i == |v| then v else v[..i] + "\"\"" + v[i + 1..]
  }

  /** A value without quotes is unchanged; otherwise exactly its first quote is doubled. */
  lemma DoubleFirstQuoteSpec(v: string)
    ensures Count('"', v) == 0 ==> DoubleFirstQuote(v) == v
    ensures Count('"', v) > 0 ==>
              exists i :: 0 <= i < |v| && v[i] == '"' && Count('"', v[..i]) == 0
                          && DoubleFirstQuote(v) == v[..i] + "\"\"" + v[i + 1..]
  {
    var i := IndexOf(v, '"', 0);
    if i < |v| {
      FirstQuoteSplit(v, i);
    } else {
      NoQuoteFound(v);
    }
  }

  /** One CSV cell: the value between double quotes, with its first quote doubled. */
  function QuoteCell(v: string): (r: string)
    ensures |r| >= 2 && r[0] == '"' && r[|r| - 1] == '"'
  {
    "\"" + DoubleFirstQuote(v) + "\""
  }

  /**
   * A value without quotes appears verbatim between the quotes; a value with
   * quotes grows by exactly 3 and its later quotes stay single.
   */
  lemma QuoteCellShape(v: string)
    ensures Count('"', v) == 0 ==> QuoteCell(v) == "\"" + v + "\""
    ensures Count('"', v) > 0 ==>
              |QuoteCell(v)| == |v| + 3
              && exists i :: 0 <= i < |v| && v[i] == '"' && Count('"', v[..i]) == 0
                             && QuoteCell(v) == "\"" + v[..i] + "\"\"" + v[i + 1..] + "\""
  {
    var i := IndexOf(v, '"', 0);
    if i < |v| {
      assert Count('"', v) > 0 && Count('"', v[..i]) == 0 by {
        FirstQuoteSplit(v, i);
      }
      var q := QuoteCell(v);
      assert q == "\"" + v[..i] + "\"\"" + v[i + 1..] + "\"" by {
        assert DoubleFirstQuote(v) == v[..i] + "\"\"" + v[i + 1..];
        QuoteAround(v[..i], v[i + 1..]);
      }
      assert |q| == |v| + 3;
    } else {
      assert Count('"', v) == 0 by {
        NoQuoteFound(v);
      }
    }
  }

  /** Regrouping a quoted cell whose value has its first quote doubled. */
  lemma QuoteAround(a: string, c: string)
    ensures "\"" + (a + "\"\"" + c) + "\"" == "\"" + a + "\"\"" + c + "\""
  {
  }

  /** Reading the inside of a quoted field as section 2 of RFC 4180 does: `""` is one quote, a lone quote is an error. */
  function UnquoteInner(x: string): Option<string>
  {
    if |x| == 0 then Some([])
    else if x[0] == '"' then
      if |x| >= 2 && x[1] == '"' then Cons('"', UnquoteInner(x[2..])) else None
    else Cons(x[0], UnquoteInner(x[1..]))
  }

  function Cons(c: char, rest: Option<string>): Option<string>
  {
    match rest
    case None => None
    case Some(s) => Some([c] + s)
  }

  /** Decoding one quoted CSV field by section 2 of RFC 4180. */
  function DecodeCell(s: string): Option<string>
  {
    if |s| >= 2 && s[0] == '"' && s[|s| - 1] == '"' then UnquoteInner(s[1..|s| - 1]) else None
  }

  /** A successful RFC 4180 decoding halves the number of quotes. */
  lemma {:induction false} UnquoteHalvesQuotes(x: string)
    ensures UnquoteInner(x).Some? ==> 2 * Count('"', UnquoteInner(x).value) == Count('"', x)
  {
    if |x| > 0 {
      if x[0] == '"' {
        if |x| >= 2 && x[1] == '"' {
          UnquoteHalvesQuotes(x[2..]);
          assert x[1..][1..] == x[2..];
          if UnquoteInner(x[2..]).Some? {
            var y := UnquoteInner(x[2..]).value;
            assert (['"'] + y)[1..] == y;
          }
        }
      } else {
        UnquoteHalvesQuotes(x[1..]);
        if UnquoteInner(x[1..]).Some? {
          var y := UnquoteInner(x[1..]).value;
          assert ([x[0]] + y)[1..] == y;
        }
      }
    }
  }

  /** Text without quotes reads as itself. */
  lemma {:induction false} UnquotePlain(w: string)
    requires Count('"', w) == 0
    ensures UnquoteInner(w) == Some(w)
  {
    if |w| > 0 {
      UnquotePlain(w[1..]);
      assert w == [w[0]] + w[1..];
    }
  }

  /** Plain text in front of an escaped remainder reads as itself followed by the remainder's reading. */
  lemma {:induction false} UnquotePlainPrefix(a: string, x: string, y: string)
    requires Count('"', a) == 0 && UnquoteInner(x) == Some(y)
    ensures UnquoteInner(a + x) == Some(a + y)
  {
    if |a| > 0 {
      assert (a + x)[1..] == a[1..] + x;
      UnquotePlainPrefix(a[1..], x, y);
      assert [a[0]] + (a[1..] + y) == a + y;
    } else {
      assert a + x == x && a + y == y;
    }
  }

  /** Doubling the first quote adds exactly one quote when there is one. */
  lemma DoubledQuotes(v: string)
    ensures Count('"', DoubleFirstQuote(v)) == Count('"', v) + (if Count('"', v) > 0 then 1 else 0)
  {
    var i := IndexOf(v, '"', 0);
    if i < |v| {
      var a, w := v[..i], v[i + 1..];
      assert Count('"', v) == 1 + Count('"', w) && Count('"', a) == 0 by {
        FirstQuoteSplit(v, i);
      }
      assert Count('"', a + ("\"\"" + w)) == 2 + Count('"', w) by {
        CountAppend('"', a, "\"\"" + w);
        CountAppend('"', "\"\"", w);
      }
      assert DoubleFirstQuote(v) == a + ("\"\"" + w);
    } else {
      NoQuoteFound(v);
    }
  }

  /** Two quotes in front of a text without quotes read as one quote in front of it. */
  lemma UnquoteDoubled(w: string)
    requires Count('"', w) == 0
    ensures UnquoteInner("\"\"" + w) == Some("\"" + w)
  {
    UnquotePlain(w);
    assert ("\"\"" + w)[2..] == w;
  }

  /** With at most one quote, the doubled text reads back as the value. */
  lemma DoubledReadsBack(v: string)
    requires Count('"', v) <= 1
    ensures UnquoteInner(DoubleFirstQuote(v)) == Some(v)
  {
    var i := IndexOf(v, '"', 0);
    if i == |v| {
      assert Count('"', v) == 0 by {
        NoQuoteFound(v);
      }
      UnquotePlain(v);
    } else {
      var a, w := v[..i], v[i + 1..];
      assert Count('"', a) == 0 && Count('"', w) == 0 && v == a + ("\"" + w) by {
        FirstQuoteSplit(v, i);
      }
      assert UnquoteInner(a + ("\"\"" + w)) == Some(a + ("\"" + w)) by {
        UnquoteDoubled(w);
        UnquotePlainPrefix(a, "\"\"" + w, "\"" + w);
      }
      assert DoubleFirstQuote(v) == a + ("\"\"" + w);
    }
  }

  /**
   * The exporter's cells read back correctly by an RFC 4180 reader exactly
   * when the value holds at most one quote: later quotes are not doubled.
   */
  lemma CellRoundTrip(v: string)
    ensures DecodeCell(QuoteCell(v)) == Some(v) <==> Count('"', v) <= 1
  {
    var r := QuoteCell(v);
    assert r[1..|r| - 1] == DoubleFirstQuote(v);
    if Count('"', v) <= 1 {
      DoubledReadsBack(v);
    } else {
      UnquoteHalvesQuotes(DoubleFirstQuote(v));
      DoubledQuotes(v);
    }
  }

  /** The parts with `sep` between consecutive ones (`Array.prototype.join`). */
  function Join(sep: string, parts: seq<string>): string
  {
    if |parts| == 0 then ""
    else if |parts| == 1 then parts[0]
    else parts[0] + sep + Join(sep, parts[1..])
  }

  /** Joined parts that do not contain `c` contain it once per separator. */
  lemma {:induction false} JoinCount(c: char, sep: string, parts: seq<string>)
    requires forall k :: 0 <= k < |parts| ==> Count(c, parts[k]) == 0
    ensures Count(c, Join(sep, parts)) == if |parts| == 0 then 0 else (|parts| - 1) * Count(c, sep)
  {
    if |parts| > 1 {
      JoinCount(c, sep, parts[1..]);
      CountAppend(c, parts[0] + sep, Join(sep, parts[1..]));
      CountAppend(c, parts[0], sep);
    }
  }

  /** The quoted cells of a row, in order. */
  function Cells(row: seq<string>): (cells: seq<string>)
    ensures |cells| == |row|
    ensures forall j :: 0 <= j < |row| ==> cells[j] == QuoteCell(row[j])
  {
    if |row| == 0 then [] else [QuoteCell(row[0])] + Cells(row[1..])
  }

  /** One CSV line: the quoted cells separated by commas. */
  function RowLine(row: seq<string>): string
  {
    Join(",", Cells(row))
  }

  /** The lines of the rows, in order. */
  function Lines(rows: seq<seq<string>>): (lines: seq<string>)
    ensures |lines| == |rows|
    ensures forall k :: 0 <= k < |rows| ==> lines[k] == RowLine(rows[k])
  {
    if |rows| == 0 then [] else [RowLine(rows[0])] + Lines(rows[1..])
  }

  /** `toCSV`: the lines of the rows separated by newlines. */
  function ToCsv(rows: seq<seq<string>>): (r: string)
    ensures |rows| == 0 ==> r == ""
    ensures |rows| == 1 ==> r == RowLine(rows[0])
  {
    Join("\n", Lines(rows))
  }

  /** Quoting adds no line breaks. */
  lemma QuoteCellNewlines(v: string)
    ensures Count('\n', QuoteCell(v)) == Count('\n', v)
  {
    var i := IndexOf(v, '"', 0);
    var d := DoubleFirstQuote(v);
    if i < |v| {
      var w := v[i + 1..];
      SplitAt(v, i);
      CountAppend('\n', v[..i], [v[i]] + w);
      CountAppend('\n', [v[i]], w);
      CountAppend('\n', v[..i], "\"\"" + w);
      CountAppend('\n', "\"\"", w);
      assert d == v[..i] + ("\"\"" + w);
    }
    CountAppend('\n', "\"", d);
    CountAppend('\n', "\"" + d, "\"");
  }

  /** A row whose values contain no line break gives a line without one. */
  lemma RowLineNewlines(row: seq<string>)
    requires forall j :: 0 <= j < |row| ==> Count('\n', row[j]) == 0
    ensures Count('\n', RowLine(row)) == 0
  {
    var cells := Cells(row);
    forall j | 0 <= j < |cells| ensures Count('\n', cells[j]) == 0 {
      QuoteCellNewlines(row[j]);
    }
    JoinCount('\n', ",", cells);
    assert Count('\n', ",") == 0;
    assert RowLine(row) == Join(",", cells);
  }

  /**
   * When no value contains a line break, the text of `n >= 1` rows contains
   * exactly `n - 1` of them: one between consecutive rows, none after the last.
   */
  lemma CsvLineBreaks(rows: seq<seq<string>>)
    requires forall k, j :: 0 <= k < |rows| && 0 <= j < |rows[k]| ==> Count('\n', rows[k][j]) == 0
    ensures Count('\n', ToCsv(rows)) == if |rows| == 0 then 0 else |rows| - 1
  {
    var lines := Lines(rows);
    forall k | 0 <= k < |lines| ensures Count('\n', lines[k]) == 0 {
      RowLineNewlines(rows[k]);
    }
    JoinCount('\n', "\n", lines);
    assert Count('\n', "\n") == 1;
  }

  function DigitChar(d: int): char
    requires 0 <= d < 10
  {
    ('0' as int + d) as char
  }

  /** Decimal digits of a natural number, without leading zeros. */
  function NatDigits(n: nat): (r: string)
    ensures |r| >= 1 && forall k :: 0 <= k < |r| ==> IsDigit(r[k])
    ensures r[0] == '0' ==> n == 0
    decreases n
  {
    if n < 10 then [DigitChar(n)] else NatDigits(n / 10) + [DigitChar(n % 10)]
  }

  /** `String(ts)` for an integer timestamp: decimal, with a minus sign when negative. */
  function DecimalString(n: int): (r: string)
    ensures |r| > 0 && (r[0] == '-' <==> n < 0)
    ensures forall k :: (if n < 0 then 1 else 0) <= k < |r| ==> IsDigit(r[k])
  {
    if n < 0 then "-" + NatDigits(-n) else NatDigits(n)
  }

  /** The value of a string of decimal digits. */
  function DigitsValue(s: string): int
  {
    if |s| == 0 then 0 else 10 * DigitsValue(s[..|s| - 1]) + (s[|s| - 1] as int - '0' as int)
  }

  /** Reading a possibly signed decimal numeral. */
  function ParseDecimal(s: string): int
  {
    if |s| > 0 && s[0] == '-' then -DigitsValue(s[1..]) else DigitsValue(s)
  }

  /** The timestamp column reads back as the timestamp. */
  lemma {:induction false} DecimalRoundTrip(n: int)
    ensures ParseDecimal(DecimalString(n)) == n
  {
    var m: nat := if n < 0 then -n else n;
    NatDigitsValue(m);
    if n < 0 {
      assert ("-" + NatDigits(m))[1..] == NatDigits(m);
    }
  }

  lemma {:induction false} NatDigitsValue(n: nat)
    ensures DigitsValue(NatDigits(n)) == n
    decreases n
  {
    if n >= 10 {
      NatDigitsValue(n / 10);
      var d := NatDigits(n / 10) + [DigitChar(n % 10)];
      assert d[..|d| - 1] == NatDigits(n / 10);
    }
  }

  /**
   * The log newest first: the spread copy `[...logs].reverse()`, built by
   * taking the last entry first. Position `k` holds entry `n - 1 - k`.
   */
  function NewestFirst(logs: seq<LogEntry>): (r: seq<LogEntry>)
    ensures |r| == |logs|
    ensures forall k :: 0 <= k < |logs| ==> r[k] == logs[|logs| - 1 - k]
  {
    if |logs| == 0 then [] else [logs[|logs| - 1]] + NewestFirst(logs[..|logs| - 1])
  }

  /** Reversing the displayed log gives back the stored log. */
  lemma NewestFirstInvolutive(logs: seq<LogEntry>)
    ensures NewestFirst(NewestFirst(logs)) == logs
  {
    var r := NewestFirst(NewestFirst(logs));
    assert forall k :: 0 <= k < |logs| ==> r[k] == logs[k];
  }

  /** A newly logged entry is shown first, ahead of the earlier ones in their displayed order. */
  lemma NewestFirstAppend(logs: seq<LogEntry>, e: LogEntry)
    ensures NewestFirst(logs + [e]) == [e] + NewestFirst(logs)
  {
    assert (logs + [e])[..|logs|] == logs;
  }

  const Header: seq<string> := ["ts", "time_local", "url", "source"]

  /** The exported row of one entry: timestamp, local time (`localTime` stands for `toLocaleString`), URL, source. */
  function EntryRow(e: LogEntry, localTime: int -> string): seq<string>
  {
    [DecimalString(e.ts), localTime(e.ts), e.url, e.source]
  }

  /**
   * The export rows: the header, then one row per log entry newest first.
   * The stored log itself is an input and is not reordered.
   */
  function ExportRows(logs: seq<LogEntry>, localTime: int -> string): (rows: seq<seq<string>>)
    ensures |rows| == |logs| + 1
    ensures rows[0] == ["ts", "time_local", "url", "source"]
    ensures forall k :: 1 <= k < |rows| ==> rows[k] == EntryRow(logs[|logs| - k], localTime)
  {
    var newest := NewestFirst(logs);
    [Header] + seq(|logs|, k requires 0 <= k < |logs| => EntryRow(newest[k], localTime))
  }
}

=== FILE: examples.dfy ===
/**
 * Concrete instances of the matching rules and of the deletion path, on
 * sample URLs: a site and its `www.` page, look-alike hosts, a query right
 * after the host, and a subdomain visit.
 *
 * The sample strings are parameters pinned by a `requires` rather than
 * literals in the lemma statements: a literal in a statement lets the solver
 * unfold the recursive string functions on it without bound.
 */
module Examples {
  import opened Optional
  import opened Text
  import opened Regex
  import opened Rules
  import opened Store
  import opened Background

  lemma ExampleUrlsSplit(p: string, bare: string, page: string)
    requires p == "example.com"
    requires bare == "https://example.com/" && page == "https://www.example.com/page"
    ensures bare == "https://" + "" + p + "/" && IsHostPrefix("")
    ensures page == "https://" + "www." + p + "/page" && IsHostPrefix("www.")
  {
  }

  /** `example.com` matches the bare site and a `www.` page of it. */
  lemma ExampleComMatches(p: string, bare: string, page: string)
    requires p == "example.com"
    requires bare == "https://example.com/" && page == "https://www.example.com/page"
    ensures DomainDenotes(GlobTokens(p), bare)
    ensures DomainDenotes(GlobTokens(p), page)
  {
    ExampleUrlsSplit(p, bare, page);
    SubdomainUrlMatches(p, bare, "https://", "", "/");
    SubdomainUrlMatches(p, page, "https://", "www.", "/page");
  }

  /**
   * A 23-character URL with no dot among its first host characters and no
   * `/` where an 11-character pattern starting at index 7 or 8 would end.
   */
  predicate ShortHostShape(url: string)
  {
    && |url| == 23
    && (forall k :: 7 <= k < 12 ==> url[k] != '.')
    && url[18] != '/' && url[19] != '/'
  }

  lemma ShortHostHasNoSplit(p: string, url: string, a: int, b: int)
    requires |p| == 11 && ShortHostShape(url)
    ensures !LiteralSplit(p, url, a, b)
  {
    LiteralSplitShape(p, url, a, b);
  }

  lemma SuffixedLabelFacts(url: string)
    requires url == "https://notexample.com/"
    ensures ShortHostShape(url)
  {
  }

  /** `example.com` does not match a longer label ending in it. */
  lemma ExampleComRejectsSuffixedLabel(p: string, url: string)
    requires p == "example.com" && url == "https://notexample.com/"
    ensures !DomainDenotes(GlobTokens(p), url)
  {
    StarFreeDomainMatch(p, url);
    SuffixedLabelFacts(url);
    forall a, b ensures !LiteralSplit(p, url, a, b) {
      ShortHostHasNoSplit(p, url, a, b);
    }
  }

  /**
   * The character facts about `https://example.com.evil.org/` that rule out
   * every literal split of an 11-character pattern.
   */
  predicate LongerHostShape(url: string)
  {
    && |url| == 29
    && (forall k :: 7 <= k < 15 ==> url[k] != '.')
    && url[16] == 'c' && url[17] == 'o' && url[18] == 'm' && url[19] == '.'
    && url[27] == 'g'
  }

  lemma LongerHostFacts(url: string)
    requires url == "https://example.com.evil.org/"
    ensures LongerHostShape(url)
  {
  }

  lemma LongerHostHasNoSplit(p: string, url: string, a: int, b: int)
    requires |p| == 11 && LongerHostShape(url)
    ensures !LiteralSplit(p, url, a, b)
  {
    LiteralSplitShape(p, url, a, b);
  }

  /** `example.com` does not match a host that merely starts with it. */
  lemma ExampleComRejectsLongerHost(p: string, url: string)
    requires p == "example.com" && url == "https://example.com.evil.org/"
    ensures !DomainDenotes(GlobTokens(p), url)
  {
    StarFreeDomainMatch(p, url);
    LongerHostFacts(url);
    forall a, b ensures !LiteralSplit(p, url, a, b) {
      LongerHostHasNoSplit(p, url, a, b);
    }
  }

  lemma QueryAfterHostFacts(url: string)
    requires url == "https://example.com?x=1"
    ensures ShortHostShape(url)
  {
  }

  /** `example.com` does not match when a query follows the host directly. */
  lemma ExampleComRejectsQueryAfterHost(p: string, url: string)
    requires p == "example.com" && url == "https://example.com?x=1"
    ensures !DomainDenotes(GlobTokens(p), url)
  {
    StarFreeDomainMatch(p, url);
    QueryAfterHostFacts(url);
    forall a, b ensures !LiteralSplit(p, url, a, b) {
      ShortHostHasNoSplit(p, url, a, b);
    }
  }


  /** The one-rule store of the scenarios: a domain rule for `pattern`, nothing counted or logged. */
  function OneRuleStore(pattern: string, enabled: bool, lastReset: string): State
  {
    State([Some(Rule(Some(pattern), "domain", Some(enabled)))], Counters(0, lastReset), [])
  }

  lemma ScenarioUrlSplit(pattern: string, url: string)
    requires pattern == "test.com" && url == "https://sub.test.com/path?x=1"
    ensures url == "https://" + "sub." + pattern + "/path?x=1" && IsHostPrefix("sub.")
  {
  }

  lemma ScenarioPatternTrimmed(pattern: string)
    requires pattern == "test.com"
    ensures pattern != [] && Trim(pattern) == pattern
  {
    TrimUnchanged(pattern);
  }

  /**
   * With the enabled domain rule `test.com`, a visit to
   * `https://sub.test.com/path?x=1` whose deletion succeeds raises the count
   * from 0 to 1 and logs exactly that URL.
   */
  lemma EnabledRuleDeletesVisit(e: Extension, pattern: string, url: string, lastReset: string, now: int,
                                reparse: string -> Option<string>)
    requires pattern == "test.com" && url == "https://sub.test.com/path?x=1"
    requires e.store == OneRuleStore(pattern, true, lastReset) && Synced(e)
    ensures var r := OnVisited(e, url, true, now, reparse);
            && r.store.counters.deletedCount == 1
            && r.store.logs == [LogEntry(url, "history.onVisited", now)]
  {
    ScenarioUrlSplit(pattern, url);
    ScenarioPatternTrimmed(pattern);
    DomainRuleMatchesSite(pattern, "https://", "sub.", "/path?x=1");
    var rules := e.store.rules;
    assert rules[0] == Some(Rule(Some(pattern), "domain", Some(true)));
    DeletionFollowsRules(e, url, "history.onVisited", true, now, reparse);
  }

  /**
   * The same rule and visit after a browser restart: the worker as loaded
   * keeps the visit, while one whose start rebuilds the cache deletes it.
   */
  lemma RestartedWorkerKeepsVisit(st: State, pattern: string, url: string, lastReset: string, now: int,
                                  reparse: string -> Option<string>)
    requires pattern == "test.com" && url == "https://sub.test.com/path?x=1"
    requires st == OneRuleStore(pattern, true, lastReset)
    ensures OnVisited(Loaded(st), url, true, now, reparse) == Loaded(st)
    ensures var w := OnInstalled(Loaded(st), reparse);
            OnVisited(w, url, true, now, reparse).store.counters.deletedCount == 1
  {
    var w := OnInstalled(Loaded(st), reparse);
    assert w.store == OneRuleStore(pattern, true, w.store.counters.lastReset);
    EnabledRuleDeletesVisit(w, pattern, url, w.store.counters.lastReset, now, reparse);
  }

  lemma DisabledOnlyRuleIsInactive(pattern: string, lastReset: string)
    ensures Active(OneRuleStore(pattern, false, lastReset).rules) == []
  {
    var rules := OneRuleStore(pattern, false, lastReset).rules;
    assert !Keeps(rules[0]);
    assert rules[1..] == [];
  }

  /** With the same rule disabled, the same visit changes nothing. */
  lemma DisabledRuleKeepsVisit(e: Extension, pattern: string, url: string, lastReset: string, now: int,
                               reparse: string -> Option<string>)
    requires pattern == "test.com" && url == "https://sub.test.com/path?x=1"
    requires e.store == OneRuleStore(pattern, false, lastReset) && Synced(e)
    ensures OnVisited(e, url, true, now, reparse) == e
  {
    DisabledOnlyRuleIsInactive(pattern, lastReset);
  }
}

=== FILE: optional.dfy ===
/** A value that may be absent: a JavaScript `null`/`undefined` slot or field. */
module Optional {

  datatype Option<+T> = None | Some(value: T)
}

=== FILE: regex.dfy ===
/**
 * The regular-expression text the extension builds from a rule pattern
 * (`escapeRegex` and the wildcard restoration in `patternToRegex`) and the
 * set of URLs that text denotes. The RegExp engine is not modelled: a regex
 * source in the small subset the compiler emits is read into tokens, and the
 * tokens are given a declarative meaning and an executable matcher.
 */
module Regex {
  import opened Optional
  import opened Text

  /** The characters `escapeRegex` protects: . * + ? ^ $ { } ( ) | [ ] and backslash. */
  predicate IsMeta(c: char)
  {
    || c == '.' || c == '*' || c == '+' || c == '?' || c == '^' || c == '$'
    || c == '{' || c == '}' || c == '(' || c == ')' || c == '|' || c == '['
    || c == ']' || c == '\\'
  }

  function MetaCount(s: string): nat
  {
    if |s| == 0 then 0 else (if IsMeta(s[0]) then 1 else 0) + MetaCount(s[1..])
  }

  /**
   * `r` is escaped regex text: every metacharacter in it is the second half of a
   * backslash escape, and every backslash starts an escape of a metacharacter.
   */
  predicate Escaped(r: string)
    decreases |r|
  {
    if |r| == 0 then true
    else if IsMeta(r[0]) then r[0] == '\\' && |r| >= 2 && IsMeta(r[1]) && Escaped(r[2..])
    else Escaped(r[1..])
  }

  /** `escapeRegex`: a backslash is put in front of every metacharacter. */
  function EscapeRegex(s: string): (r: string)
    ensures Escaped(r)
    ensures |r| == |s| + MetaCount(s)
  {
    if |s| == 0 then []
    else
      var rest := EscapeRegex(s[1..]);
      if IsMeta(s[0]) then
        assert (['\\', s[0]] + rest)[2..] == rest;
        ['\\', s[0]] + rest
      else
        assert ([s[0]] + rest)[1..] == rest;
        [s[0]] + rest
  }

  /** Drops the backslash of every escape; the inverse of `EscapeRegex`. */
  function Unescape(r: string): string
    decreases |r|
  {
    if |r| == 0 then []
    else if r[0] == '\\' && |r| >= 2 then [r[1]] + Unescape(r[2..])
    else [r[0]] + Unescape(r[1..])
  }

  /** Stripping the escapes from `escapeRegex`'s output gives back its input. */
  lemma {:induction false} UnescapeEscape(s: string)
    ensures Unescape(EscapeRegex(s)) == s
  {
    if |s| > 0 {
      var rest := EscapeRegex(s[1..]);
      UnescapeEscape(s[1..]);
      if IsMeta(s[0]) {
        assert (['\\', s[0]] + rest)[2..] == rest;
      } else {
        assert ([s[0]] + rest)[1..] == rest;
      }
      assert s == [s[0]] + s[1..];
    }
  }

  /** Every escaped text is `escapeRegex` of exactly one string, its unescaping. */
  lemma {:induction false} EscapeUnescape(r: string)
    requires Escaped(r)
    ensures EscapeRegex(Unescape(r)) == r
  {
    if |r| > 0 {
      if IsMeta(r[0]) {
        EscapeUnescape(r[2..]);
        var u := Unescape(r[2..]);
        assert ([r[1]] + u)[1..] == u;
        assert r == ['\\', r[1]] + r[2..];
      } else {
        EscapeUnescape(r[1..]);
        var u := Unescape(r[1..]);
        assert ([r[0]] + u)[1..] == u;
        assert r == [r[0]] + r[1..];
      }
    }
  }

  /**
   * The global replacement of the two-character text backslash-star by `.*`,
   * scanning left to right without overlaps, as a global regex replace does.
   */
  function RestoreStars(e: string): (r: string)
    ensures |r| == |e|
    decreases |e|
  {
    if |e| == 0 then []
    else if |e| >= 2 && e[0] == '\\' && e[1] == '*' then ".*" + RestoreStars(e[2..])
    else [e[0]] + RestoreStars(e[1..])
  }

  /**
   * The replacement changes nothing but the backslash of a `\*` pair, which
   * becomes the `.` of `.*`; every other character stays where it was.
   */
  lemma {:induction false} RestoreStarsRewritesOnlyEscapedStars(e: string)
    ensures forall k :: 0 <= k < |e| && RestoreStars(e)[k] != e[k] ==>
              e[k] == '\\' && k + 1 < |e| && e[k + 1] == '*' && RestoreStars(e)[k] == '.'
    decreases |e|
  {
    if |e| == 0 {
    } else if |e| >= 2 && e[0] == '\\' && e[1] == '*' {
      var t := RestoreStars(e[2..]);
      RestoreStarsRewritesOnlyEscapedStars(e[2..]);
      assert RestoreStars(e) == ".*" + t;
      forall k | 2 <= k < |e| && RestoreStars(e)[k] != e[k]
        ensures e[k] == '\\' && k + 1 < |e| && e[k + 1] == '*' && RestoreStars(e)[k] == '.'
      {
        assert RestoreStars(e)[k] == t[k - 2] && e[k] == e[2..][k - 2];
        assert k + 1 < |e| ==> e[k + 1] == e[2..][k - 1];
      }
    } else {
      var t := RestoreStars(e[1..]);
      RestoreStarsRewritesOnlyEscapedStars(e[1..]);
      assert RestoreStars(e) == [e[0]] + t;
      forall k | 1 <= k < |e| && RestoreStars(e)[k] != e[k]
        ensures e[k] == '\\' && k + 1 < |e| && e[k + 1] == '*' && RestoreStars(e)[k] == '.'
      {
        assert RestoreStars(e)[k] == t[k - 1] && e[k] == e[1..][k - 1];
        assert k + 1 < |e| ==> e[k + 1] == e[1..][k];
      }
    }
  }

  /** One element of a compiled pattern: a literal character or the wildcard `.*`. */
  datatype Token = Lit(c: char) | AnyText

  function Prepend(t: Token, rest: Option<seq<Token>>): Option<seq<Token>>
  {
    match rest
    case None => None
    case Some(ts) => Some([t] + ts)
  }

  /**
   * Reads regex source text of the subset the compiler emits: a backslash
   * followed by a metacharacter is that character literally, `.*` is the
   * wildcard, and any other non-metacharacter stands for itself. Text outside
   * the subset (a bare metacharacter, a class escape such as `\d`) is `None`.
   */
  function Parse(src: string): Option<seq<Token>>
    decreases |src|
  {
    if |src| == 0 then Some([])
    else if src[0] == '\\' then
      if |src| >= 2 && IsMeta(src[1]) then Prepend(Lit(src[1]), Parse(src[2..])) else None
    else if src[0] == '.' && |src| >= 2 && src[1] == '*' then Prepend(AnyText, Parse(src[2..]))
    else if IsMeta(src[0]) then None
    else Prepend(Lit(src[0]), Parse(src[1..]))
  }

  /** The tokens a keyword pattern should denote: every character literally. */
  function Literals(p: string): seq<Token>
  {
    if |p| == 0 then [] else [Lit(p[0])] + Literals(p[1..])
  }

  /** The tokens a domain pattern should denote: `*` is the wildcard, everything else literal. */
  function GlobTokens(p: string): seq<Token>
  {
    if |p| == 0 then []
    else [if p[0] == '*' then AnyText else Lit(p[0])] + GlobTokens(p[1..])
  }

  /** The escaped text of a keyword pattern reads as the pattern's characters, each a literal. */
  lemma {:induction false} KeywordBodyReadsLiterally(p: string)
    ensures Parse(EscapeRegex(p)) == Some(Literals(p))
  {
    if |p| > 0 {
      KeywordBodyReadsLiterally(p[1..]);
      var rest := EscapeRegex(p[1..]);
      if IsMeta(p[0]) {
        assert (['\\', p[0]] + rest)[2..] == rest;
      } else {
        assert ([p[0]] + rest)[1..] == rest;
      }
    }
  }

  lemma PairPrefix(a: char, b: char, rest: string)
    ensures [a, b] + rest == [a] + ([b] + rest)
  {
  }

  /** A character that does not start `\*` is copied by `RestoreStars`. */
  lemma RestoreStarsCopies(c: char, rest: string)
    requires c != '\\' || |rest| == 0 || rest[0] != '*'
    ensures RestoreStars([c] + rest) == [c] + RestoreStars(rest)
  {
    assert ([c] + rest)[1..] == rest;
  }

  /** Restoring stars in escaped text works escape by escape: the first one becomes `.*` exactly when it escapes a `*`. */
  lemma RestoreEscapedHead(p: string)
    requires |p| > 0
    ensures RestoreStars(EscapeRegex(p))
            == (if p[0] == '*' then ".*" else if IsMeta(p[0]) then ['\\', p[0]] else [p[0]])
               + RestoreStars(EscapeRegex(p[1..]))
  {
    var rest := EscapeRegex(p[1..]);
    if p[0] == '*' {
      assert RestoreStars(EscapeRegex(p)) == ".*" + RestoreStars(rest) by {
        var e := ['\\', '*'] + rest;
        assert EscapeRegex(p) == e;
        assert e[2..] == rest;
      }
    } else if IsMeta(p[0]) {
      assert RestoreStars(EscapeRegex(p)) == ['\\', p[0]] + RestoreStars(rest) by {
        assert EscapeRegex(p) == ['\\', p[0]] + rest;
        PairPrefix('\\', p[0], rest);
        PairPrefix('\\', p[0], RestoreStars(rest));
        assert |rest| > 0 ==> rest[0] != '*';
        RestoreStarsCopies(p[0], rest);
        RestoreStarsCopies('\\', [p[0]] + rest);
      }
    } else {
      assert RestoreStars(EscapeRegex(p)) == [p[0]] + RestoreStars(rest) by {
        assert EscapeRegex(p) == [p[0]] + rest;
        RestoreStarsCopies(p[0], rest);
      }
    }
  }

  /**
   * Escaping and then restoring stars yields text that reads as the original
   * characters literally, except that each original `*` is the wildcard; this
   * includes a `*` that follows a backslash in the pattern.
   */
  lemma {:induction false} DomainBodyReadsAsGlob(p: string)
    ensures Parse(RestoreStars(EscapeRegex(p))) == Some(GlobTokens(p))
  {
    if |p| > 0 {
      DomainBodyReadsAsGlob(p[1..]);
      RestoreEscapedHead(p);
      var restored := RestoreStars(EscapeRegex(p[1..]));
      if p[0] == '*' {
        assert (".*" + restored)[2..] == restored;
      } else if IsMeta(p[0]) {
        assert (['\\', p[0]] + restored)[2..] == restored;
      } else {
        assert ([p[0]] + restored)[1..] == restored;
      }
    }
  }

  /** The characters JavaScript's `.` refuses to match: LF, CR, U+2028 and U+2029. */
  predicate IsLineTerminator(c: char)
  {
    c == '\n' || c == '\r' || c == '\U{2028}' || c == '\U{2029}'
  }

  predicate OneLine(w: string)
  {
    forall i :: 0 <= i < |w| ==> !IsLineTerminator(w[i])
  }

  /**
   * The tokens match the whole of `w`, ignoring ASCII case (the `i` flag): a
   * literal matches one equal character, the wildcard any run of characters
   * on one line.
   */
  ghost predicate TokensMatch(ts: seq<Token>, w: string)
    decreases |ts|
  {
    if |ts| == 0 then |w| == 0
    else match ts[0]
      case Lit(c) => |w| > 0 && SameLetter(w[0], c) && TokensMatch(ts[1..], w[1..])
      case AnyText => exists k :: 0 <= k <= |w| && OneLine(w[..k]) && TokensMatch(ts[1..], w[k..])
  }

  /** Executable matcher for `TokensMatch`: the wildcard either ends here or eats one more character. */
  function GlobMatch(ts: seq<Token>, w: string): bool
    decreases |ts|, |w|
  {
    if |ts| == 0 then |w| == 0
    else match ts[0]
      case Lit(c) => |w| > 0 && SameLetter(w[0], c) && GlobMatch(ts[1..], w[1..])
      case AnyText =>
        GlobMatch(ts[1..], w) || (|w| > 0 && !IsLineTerminator(w[0]) && GlobMatch(ts, w[1..]))
  }

  /** The executable matcher decides exactly the declarative match. */
  lemma {:induction false} GlobMatchAgrees(ts: seq<Token>, w: string)
    ensures GlobMatch(ts, w) <==> TokensMatch(ts, w)
    decreases |ts|, |w|
  {
    if |ts| > 0 {
      match ts[0]
      case Lit(c) =>
        if |w| > 0 {
          GlobMatchAgrees(ts[1..], w[1..]);
        }
      case AnyText =>
        GlobMatchAgrees(ts[1..], w);
        if |w| > 0 {
          GlobMatchAgrees(ts, w[1..]);
        }
        if GlobMatch(ts, w) {
          if !GlobMatch(ts[1..], w) {
            var k :| 0 <= k <= |w[1..]| && OneLine(w[1..][..k]) && TokensMatch(ts[1..], w[1..][k..]);
            assert w[..k + 1] == [w[0]] + w[1..][..k];
            assert w[k + 1..] == w[1..][k..];
            assert OneLine(w[..k + 1]);
          } else {
            assert w[..0] == [] && w[0..] == w;
          }
        }
        if TokensMatch(ts, w) {
          var k :| 0 <= k <= |w| && OneLine(w[..k]) && TokensMatch(ts[1..], w[k..]);
          if k == 0 {
            assert w[0..] == w;
          } else {
            assert w[1..][..k - 1] == w[1..k];
            assert w[1..][k - 1..] == w[k..];
            assert !IsLineTerminator(w[..k][0]);
            var v := w[1..][..k - 1];
            assert OneLine(v) by {
              forall i | 0 <= i < |v| ensures !IsLineTerminator(v[i]) {
                assert v[i] == w[..k][i + 1];
              }
            }
          }
        }
    }
  }

  /** Literal tokens match exactly the strings equal to the pattern up to case. */
  lemma {:induction false} LiteralsMatch(p: string, w: string)
    ensures TokensMatch(Literals(p), w) <==> SameText(w, p)
  {
    if |p| > 0 && |w| > 0 {
      LiteralsMatch(p[1..], w[1..]);
      assert Literals(p)[1..] == Literals(p[1..]);
      if SameText(w[1..], p[1..]) && SameLetter(w[0], p[0]) {
        forall i | 0 <= i < |w| ensures SameLetter(w[i], p[i]) {
          if i > 0 {
            assert w[i] == w[1..][i - 1] && p[i] == p[1..][i - 1];
          }
        }
      }
      if SameText(w, p) {
        assert SameLetter(w[0], p[0]);
        forall i | 0 <= i < |w| - 1 ensures SameLetter(w[1..][i], p[1..][i]) {
          assert w[1..][i] == w[i + 1];
        }
      }
    } else if |p| > 0 {
      assert !SameText(w, p);
    } else if |w| > 0 {
      assert !SameText(w, p);
    }
  }

  /** A domain pattern matches its own text: its wildcards can match the `*` they stand for. */
  lemma {:induction false} GlobMatchesItself(p: string)
    ensures TokensMatch(GlobTokens(p), p)
  {
    if |p| > 0 {
      GlobMatchesItself(p[1..]);
      var ts := GlobTokens(p);
      assert ts[1..] == GlobTokens(p[1..]);
      if p[0] == '*' {
        assert p[..1] == "*";
        assert OneLine(p[..1]);
        assert TokensMatch(ts[1..], p[1..]);
      } else {
        assert SameLetter(p[0], p[0]);
      }
    }
  }

  /** A pattern without `*` reads the same as a domain glob and as a keyword. */
  lemma {:induction false} StarFreeGlobIsLiteral(p: string)
    requires forall i :: 0 <= i < |p| ==> p[i] != '*'
    ensures GlobTokens(p) == Literals(p)
  {
    if |p| > 0 {
      StarFreeGlobIsLiteral(p[1..]);
    }
  }

  /** Text that may precede the domain pattern: nothing, or a run without `/` that ends in a dot. */
  predicate IsHostPrefix(s: string)
  {
    |s| == 0 || (s[|s| - 1] == '.' && forall i :: 0 <= i < |s| ==> s[i] != '/')
  }

  /** `http://` or `https://`, ignoring case. */
  predicate IsSchemeText(s: string)
  {
    SameText(s, "http://") || SameText(s, "https://")
  }

  /**
   * The domain regex `^https?:\/\/(?:[^\/]*\.)?BODY(?:\/|$)` splits `url` as
   * scheme `url[..a]`, optional subdomain prefix `url[a..b]`, pattern
   * `url[b..c]`, and then a `/` or the end of the URL.
   */
  ghost predicate DomainSplit(ts: seq<Token>, url: string, a: int, b: int, c: int)
  {
    && 0 <= a <= b <= c <= |url|
    && IsSchemeText(url[..a])
    && IsHostPrefix(url[a..b])
    && TokensMatch(ts, url[b..c])
    && (c == |url| || url[c] == '/')
  }

  ghost predicate DomainDenotes(ts: seq<Token>, url: string)
  {
    exists a, b, c :: DomainSplit(ts, url, a, b, c)
  }

  /** An unanchored regex matches some slice of the URL. */
  ghost predicate KeywordDenotes(ts: seq<Token>, url: string)
  {
    exists i, j :: 0 <= i <= j <= |url| && TokensMatch(ts, url[i..j])
  }

  /** `p` occurs in `url` at index `i`, ignoring ASCII case. */
  predicate OccursAt(url: string, p: string, i: int)
  {
    0 <= i <= |url| - |p| && SameText(url[i..i + |p|], p)
  }

  /** `p` occurs somewhere in `url`, ignoring ASCII case. */
  ghost predicate ContainsText(url: string, p: string)
  {
    exists i :: OccursAt(url, p, i)
  }

  /** Position `c` of `url` is where the domain regex may stop: a `/` or the end. */
  predicate AtBoundary(url: string, c: int)
  {
    c == |url| || (0 <= c < |url| && url[c] == '/')
  }

  /** Some end at or after `from` closes the pattern, started at `b`, on a boundary. */
  function PatternEndsFrom(ts: seq<Token>, url: string, b: nat, from: nat): (r: bool)
    requires b <= from <= |url|
    ensures r <==> exists c :: from <= c <= |url| && TokensMatch(ts, url[b..c]) && AtBoundary(url, c)
    decreases |url| - from
  {
    GlobMatchAgrees(ts, url[b..from]);
    (GlobMatch(ts, url[b..from]) && AtBoundary(url, from))
    || (from < |url| && PatternEndsFrom(ts, url, b, from + 1))
  }

  /** Some start at or after `from` ends a valid subdomain prefix begun at `a` and is followed by the pattern. */
  function HostFrom(ts: seq<Token>, url: string, a: nat, from: nat): (r: bool)
    requires a <= from <= |url|
    ensures r <==> exists b, c :: from <= b <= c <= |url| && IsHostPrefix(url[a..b])
                                  && TokensMatch(ts, url[b..c]) && AtBoundary(url, c)
    decreases |url| - from
  {
    (IsHostPrefix(url[a..from]) && PatternEndsFrom(ts, url, from, from))
    || (from < |url| && HostFrom(ts, url, a, from + 1))
  }

  /** Executable matcher for the domain regex: the scheme is 7 or 8 characters long. */
  function DomainTest(ts: seq<Token>, url: string): (r: bool)
    ensures r <==> DomainDenotes(ts, url)
  {
    var r := (|url| >= 7 && IsSchemeText(url[..7]) && HostFrom(ts, url, 7, 7))
             || (|url| >= 8 && IsSchemeText(url[..8]) && HostFrom(ts, url, 8, 8));
    assert DomainDenotes(ts, url) ==> r by {
      if DomainDenotes(ts, url) {
        var a, b, c :| DomainSplit(ts, url, a, b, c);
        assert a == 7 || a == 8;
        assert AtBoundary(url, c);
        assert HostFrom(ts, url, a, a);
      }
    }
    assert r ==> DomainDenotes(ts, url) by {
      if r {
        var a := if |url| >= 7 && IsSchemeText(url[..7]) && HostFrom(ts, url, 7, 7) then 7 else 8;
        var b, c :| a <= b <= c <= |url| && IsHostPrefix(url[a..b])
                    && TokensMatch(ts, url[b..c]) && AtBoundary(url, c);
        assert DomainSplit(ts, url, a, b, c);
      }
    }
    r
  }

  /** Some slice starting at `i` and ending at or after `from` matches the tokens. */
  function SliceFrom(ts: seq<Token>, url: string, i: nat, from: nat): (r: bool)
    requires i <= from <= |url|
    ensures r <==> exists j :: from <= j <= |url| && TokensMatch(ts, url[i..j])
    decreases |url| - from
  {
    GlobMatchAgrees(ts, url[i..from]);
    GlobMatch(ts, url[i..from]) || (from < |url| && SliceFrom(ts, url, i, from + 1))
  }

  /** Some slice starting at or after `from` matches the tokens. */
  function KeywordFrom(ts: seq<Token>, url: string, from: nat): (r: bool)
    requires from <= |url|
    ensures r <==> exists i, j :: from <= i <= j <= |url| && TokensMatch(ts, url[i..j])
    decreases |url| - from
  {
    SliceFrom(ts, url, from, from) || (from < |url| && KeywordFrom(ts, url, from + 1))
  }

  /** Executable matcher for an unanchored regex. */
  function KeywordTest(ts: seq<Token>, url: string): (r: bool)
    ensures r <==> KeywordDenotes(ts, url)
  {
    KeywordFrom(ts, url, 0)
  }

  /**
   * A keyword regex (the escaped pattern, unanchored) matches exactly the URLs
   * that contain the pattern as a literal substring, ignoring ASCII case.
   */
  lemma KeywordMeansSubstring(p: string, url: string)
    ensures KeywordDenotes(Literals(p), url) <==> ContainsText(url, p)
  {
    forall i, j | 0 <= i <= j <= |url|
      ensures TokensMatch(Literals(p), url[i..j]) <==> SameText(url[i..j], p)
    {
      LiteralsMatch(p, url[i..j]);
    }
    if KeywordDenotes(Literals(p), url) {
      var i, j :| 0 <= i <= j <= |url| && TokensMatch(Literals(p), url[i..j]);
      assert OccursAt(url, p, i);
    }
    if ContainsText(url, p) {
      var i :| OccursAt(url, p, i);
      assert TokensMatch(Literals(p), url[i..i + |p|]);
    }
  }

  /**
   * A domain pattern matches `http://` or `https://`, then any subdomain prefix
   * ending in a dot, then the pattern's own text, then a path or nothing.
   */
  lemma SubdomainUrlMatches(p: string, url: string, scheme: string, sub: string, rest: string)
    requires scheme == "http://" || scheme == "https://"
    requires IsHostPrefix(sub)
    requires rest == [] || rest[0] == '/'
    requires url == scheme + sub + p + rest
    ensures DomainDenotes(GlobTokens(p), url)
  {
    var a, b, c := |scheme|, |scheme| + |sub|, |scheme| + |sub| + |p|;
    assert url[..a] == scheme;
    assert url[a..b] == sub;
    assert url[b..c] == p;
    GlobMatchesItself(p);
    assert SameText(scheme, scheme);
    assert c < |url| ==> url[c] == rest[0];
    assert DomainSplit(GlobTokens(p), url, a, b, c);
  }

  /**
   * A compiled regex: `DomainRegex(body)` is the text
   * `^https?:\/\/(?:[^\/]*\.)?` + body + `(?:\/|$)` with the `i` flag, and
   * `KeywordRegex(body)` is body alone with the `i` flag.
   */
  datatype Matcher = DomainRegex(body: string) | KeywordRegex(body: string)

  /** The URLs the compiled regex accepts; text outside the modelled subset accepts none. */
  ghost predicate Denotes(m: Matcher, url: string)
  {
    match Parse(m.body)
    case None => false
    case Some(ts) => if m.DomainRegex? then DomainDenotes(ts, url) else KeywordDenotes(ts, url)
  }

  /** `regex.test(url)`. */
  function Test(m: Matcher, url: string): (r: bool)
    ensures r <==> Denotes(m, url)
  {
    match Parse(m.body)
    case None => false
    case Some(ts) => if m.DomainRegex? then DomainTest(ts, url) else KeywordTest(ts, url)
  }

  /**
   * A pattern without `*` sits at `url[b..b+|p|]`, right after the scheme
   * `url[..a]` and a subdomain prefix `url[a..b]`, and is followed by a `/` or
   * the end.
   */
  ghost predicate LiteralSplit(p: string, url: string, a: int, b: int)
  {
    && 0 <= a <= b && b + |p| <= |url|
    && IsSchemeText(url[..a])
    && IsHostPrefix(url[a..b])
    && SameText(url[b..b + |p|], p)
    && AtBoundary(url, b + |p|)
  }

  /**
   * Where a literal occurrence can sit: after a 7- or 8-character scheme,
   * either right there or just after a dot, and followed by `/` or the end.
   */
  lemma LiteralSplitShape(p: string, url: string, a: int, b: int)
    ensures LiteralSplit(p, url, a, b) ==>
              && (a == 7 || a == 8) && a <= b
              && (a == b || url[b - 1] == '.')
              && (b + |p| == |url| || url[b + |p|] == '/')
  {
    if LiteralSplit(p, url, a, b) && a < b {
      assert url[a..b][b - a - 1] == url[b - 1];
    }
  }

  /** A star-free domain pattern matches exactly the texts equal to it up to case. */
  lemma StarFreeGlobMatch(p: string, w: string)
    requires forall i :: 0 <= i < |p| ==> p[i] != '*'
    ensures TokensMatch(GlobTokens(p), w) <==> SameText(w, p)
  {
    StarFreeGlobIsLiteral(p);
    LiteralsMatch(p, w);
  }

  /** A split whose middle equals the pattern up to case is a literal occurrence of it. */
  lemma SameTextSplitIsLiteral(p: string, url: string, a: int, b: int, c: int)
    requires 0 <= a <= b <= c <= |url|
    requires IsSchemeText(url[..a]) && IsHostPrefix(url[a..b])
    requires SameText(url[b..c], p) && (c == |url| || url[c] == '/')
    ensures c == b + |p| && LiteralSplit(p, url, a, b)
  {
  }

  /** A literal occurrence of a star-free pattern is a domain match of it. */
  lemma LiteralSplitIsDomainSplit(p: string, url: string, a: int, b: int)
    requires forall i :: 0 <= i < |p| ==> p[i] != '*'
    requires LiteralSplit(p, url, a, b)
    ensures DomainSplit(GlobTokens(p), url, a, b, b + |p|)
  {
    StarFreeGlobMatch(p, url[b..b + |p|]);
  }

  /**
   * A domain pattern without `*` matches exactly when it occurs, ignoring
   * case, right after the scheme or right after a dot of the host, and is
   * followed by a `/` or the end of the URL.
   */
  lemma StarFreeDomainMatch(p: string, url: string)
    requires forall i :: 0 <= i < |p| ==> p[i] != '*'
    ensures DomainDenotes(GlobTokens(p), url) <==> exists a, b :: LiteralSplit(p, url, a, b)
  {
    if DomainDenotes(GlobTokens(p), url) {
      var a, b, c :| DomainSplit(GlobTokens(p), url, a, b, c);
      StarFreeGlobMatch(p, url[b..c]);
      SameTextSplitIsLiteral(p, url, a, b, c);
    }
    if exists a, b :: LiteralSplit(p, url, a, b) {
      var a, b :| LiteralSplit(p, url, a, b);
      LiteralSplitIsDomainSplit(p, url, a, b);
    }
  }
}

=== FILE: rules.dfy ===
/**
 * Stored rules, their compilation (`patternToRegex`), the active rule set
 * (`compileRulesFromStorage`) and `urlMatches`.
 */
module Rules {
  import opened Optional
  import opened Text
  import opened Regex

  /**
   * A stored rule. `pattern` and `enabled` may be absent from the stored
   * object; `kind` is the stored `type` field, which the extension writes as
   * "domain" or "keyword" but which may hold any string.
   */
  datatype Rule = Rule(pattern: Option<string>, kind: string, enabled: Option<bool>)

  /** A rule together with its compiled regex. */
  datatype CompiledRule = CompiledRule(rule: Rule, regex: Matcher)

  /**
   * `rule.pattern || ''` followed by `trim()`: empty exactly when the pattern
   * is missing or all white space, and otherwise free of white space at its ends.
   */
  function TrimmedPattern(r: Rule): (t: string)
    ensures t == [] <==> r.pattern.None? || AllSpace(r.pattern.value)
    ensures t == [] || (!IsSpace(t[0]) && !IsSpace(t[|t| - 1]))
  {
    match r.pattern
    case None => ""
    case Some(p) => TrimEmptyIff(p); Trim(p)
  }

  /** Only an explicit `enabled: false` disables a rule. */
  predicate IsEnabled(r: Rule)
  {
    r.enabled != Some(false)
  }

  /**
   * What a rule is meant to match, stated on the raw pattern: nothing when the
   * trimmed pattern is empty; for type "domain", the scheme, an optional
   * subdomain prefix, the pattern with `*` as wildcard, and a `/` or the end;
   * for any other type, the pattern as a literal substring. Case is ignored.
   */
  ghost predicate RuleDenotes(r: Rule, url: string)
  {
    var p := TrimmedPattern(r);
    p != [] && (if r.kind == "domain" then DomainDenotes(GlobTokens(p), url) else ContainsText(url, p))
  }

  /**
   * `patternToRegex`: no regex for an empty trimmed pattern; otherwise a
   * domain regex whose body reads as the glob of the trimmed pattern, or (for
   * every other type) a keyword regex whose body reads as its literal text.
   */
  function PatternToRegex(r: Rule): (m: Option<Matcher>)
    ensures m == None <==> TrimmedPattern(r) == []
    ensures m.Some? && r.kind == "domain" ==>
              m.value.DomainRegex? && Parse(m.value.body) == Some(GlobTokens(TrimmedPattern(r)))
    ensures m.Some? && r.kind != "domain" ==>
              m.value.KeywordRegex? && Parse(m.value.body) == Some(Literals(TrimmedPattern(r)))
  {
    var p := TrimmedPattern(r);
    if p == [] then None
    else if r.kind == "domain" then
      DomainBodyReadsAsGlob(p);
      Some(DomainRegex(RestoreStars(EscapeRegex(p))))
    else
      KeywordBodyReadsLiterally(p);
      Some(KeywordRegex(EscapeRegex(p)))
  }

  /** The regex compiled from a rule accepts exactly the URLs the rule is meant to match. */
  lemma CompiledRuleMeans(r: Rule, url: string)
    ensures PatternToRegex(r) == None ==> !RuleDenotes(r, url)
    ensures PatternToRegex(r).Some? ==> (Test(PatternToRegex(r).value, url) <==> RuleDenotes(r, url))
  {
    if PatternToRegex(r).Some? && r.kind != "domain" {
      KeywordMeansSubstring(TrimmedPattern(r), url);
    }
  }

  /** The rule at a stored slot is kept in the active set. */
  predicate Keeps(slot: Option<Rule>)
  {
    slot.Some? && IsEnabled(slot.value) && PatternToRegex(slot.value).Some?
  }

  /**
   * `compileRulesFromStorage`: drop null slots and disabled rules, compile the
   * rest, drop those without a regex; stored order is kept.
   */
  function Active(rules: seq<Option<Rule>>): seq<CompiledRule>
  {
    if |rules| == 0 then []
    else
      var rest := Active(rules[1..]);
      if Keeps(rules[0]) then
        [CompiledRule(rules[0].value, PatternToRegex(rules[0].value).value)] + rest
      else rest
  }

  /** The active set of a concatenation is the concatenation of the active sets, so order is kept. */
  lemma {:induction false} ActiveAppend(a: seq<Option<Rule>>, b: seq<Option<Rule>>)
    ensures Active(a + b) == Active(a) + Active(b)
  {
    if |a| > 0 {
      assert (a + b)[1..] == a[1..] + b;
      ActiveAppend(a[1..], b);
    } else {
      assert a + b == b;
    }
  }

  /**
   * An entry is in the active set exactly when some stored slot holds its rule,
   * that rule is enabled, and the entry's regex is the rule's compiled regex.
   */
  lemma {:induction false} ActiveMembers(rules: seq<Option<Rule>>, c: CompiledRule)
    ensures c in Active(rules) <==>
              exists i :: 0 <= i < |rules| && rules[i] == Some(c.rule)
                          && IsEnabled(c.rule) && PatternToRegex(c.rule) == Some(c.regex)
  {
    if |rules| > 0 {
      ActiveMembers(rules[1..], c);
      if c in Active(rules[1..]) {
        var i :| 0 <= i < |rules[1..]| && rules[1..][i] == Some(c.rule);
        assert rules[i + 1] == rules[1..][i];
      }
      if exists i :: 0 <= i < |rules| && rules[i] == Some(c.rule)
                     && IsEnabled(c.rule) && PatternToRegex(c.rule) == Some(c.regex) {
        var i :| 0 <= i < |rules| && rules[i] == Some(c.rule)
                 && IsEnabled(c.rule) && PatternToRegex(c.rule) == Some(c.regex);
        if i > 0 {
          assert rules[1..][i - 1] == rules[i];
        }
      }
    }
  }

  /** `urlMatches`: some active regex accepts the URL, trying them in order. */
  function UrlMatches(compiled: seq<CompiledRule>, url: string): (r: bool)
    ensures r <==> exists i :: 0 <= i < |compiled| && Denotes(compiled[i].regex, url)
  {
    if |compiled| == 0 then false
    else if Test(compiled[0].regex, url) then true
    else
      var r := UrlMatches(compiled[1..], url);
      assert r ==> exists i :: 0 <= i < |compiled| && Denotes(compiled[i].regex, url) by {
        if r {
          var i :| 0 <= i < |compiled[1..]| && Denotes(compiled[1..][i].regex, url);
          assert compiled[i + 1] == compiled[1..][i];
        }
      }
      assert (exists i :: 0 <= i < |compiled| && Denotes(compiled[i].regex, url)) ==> r by {
        if exists i :: 0 <= i < |compiled| && Denotes(compiled[i].regex, url) {
          var i :| 0 <= i < |compiled| && Denotes(compiled[i].regex, url);
          assert i > 0;
          assert compiled[1..][i - 1] == compiled[i];
        }
      }
      r
  }

  /**
   * A URL matches the active set of a stored rule list exactly when some
   * non-null, enabled stored rule is meant to match it.
   */
  lemma {:induction false} UrlMatchesActive(rules: seq<Option<Rule>>, url: string)
    ensures UrlMatches(Active(rules), url) <==>
              exists i :: 0 <= i < |rules| && rules[i].Some? && IsEnabled(rules[i].value)
                          && RuleDenotes(rules[i].value, url)
  {
    if |rules| > 0 {
      UrlMatchesActive(rules[1..], url);
      var rest := Active(rules[1..]);
      if rules[0].Some? {
        CompiledRuleMeans(rules[0].value, url);
      }
      if Keeps(rules[0]) {
        var head := CompiledRule(rules[0].value, PatternToRegex(rules[0].value).value);
        assert Active(rules) == [head] + rest;
        assert UrlMatches(Active(rules), url) <==> Test(head.regex, url) || UrlMatches(rest, url) by {
          assert ([head] + rest)[1..] == rest;
        }
      }
      if exists i :: 0 <= i < |rules[1..]| && rules[1..][i].Some? && IsEnabled(rules[1..][i].value)
                     && RuleDenotes(rules[1..][i].value, url) {
        var i :| 0 <= i < |rules[1..]| && rules[1..][i].Some? && IsEnabled(rules[1..][i].value)
                 && RuleDenotes(rules[1..][i].value, url);
        assert rules[i + 1] == rules[1..][i];
      }
      if exists i :: 0 <= i < |rules| && rules[i].Some? && IsEnabled(rules[i].value)
                     && RuleDenotes(rules[i].value, url) {
        var i :| 0 <= i < |rules| && rules[i].Some? && IsEnabled(rules[i].value)
                 && RuleDenotes(rules[i].value, url);
        if i > 0 {
          assert rules[1..][i - 1] == rules[i];
        }
      }
    }
  }

  /** Matching against two lists of regexes one after the other is matching against either. */
  lemma UrlMatchesConcat(a: seq<CompiledRule>, b: seq<CompiledRule>, url: string)
    ensures UrlMatches(a + b, url) <==> UrlMatches(a, url) || UrlMatches(b, url)
  {
    if UrlMatches(a + b, url) {
      var i :| 0 <= i < |a + b| && Denotes((a + b)[i].regex, url);
      if i < |a| {
        assert (a + b)[i] == a[i];
      } else {
        assert (a + b)[i] == b[i - |a|];
      }
    }
    if UrlMatches(a, url) {
      var i :| 0 <= i < |a| && Denotes(a[i].regex, url);
      assert (a + b)[i] == a[i];
    }
    if UrlMatches(b, url) {
      var i :| 0 <= i < |b| && Denotes(b[i].regex, url);
      assert (a + b)[|a| + i] == b[i];
    }
  }

  /** Storing one more rule adds exactly the URLs that rule denotes, when it is enabled. */
  lemma UrlMatchesAfterAppend(rules: seq<Option<Rule>>, added: Rule, url: string)
    ensures UrlMatches(Active(rules + [Some(added)]), url) <==>
              UrlMatches(Active(rules), url) || (IsEnabled(added) && RuleDenotes(added, url))
  {
    ActiveAppend(rules, [Some(added)]);
    UrlMatchesConcat(Active(rules), Active([Some(added)]), url);
    UrlMatchesActive([Some(added)], url);
  }
}

=== FILE: store.dfy ===
/**
 * The persisted state `(rules, counters, logs)`, the read path `getState`
 * with its migration of `lastReset`, and the 30-day count.
 */
module Store {
  import opened Optional
  import opened Rules

  /** One audit record of a performed deletion; `ts` is epoch milliseconds. */
  datatype LogEntry = LogEntry(url: string, source: string, ts: int)

  datatype Counters = Counters(deletedCount: int, lastReset: string)

  /** The three top-level storage keys. A rule slot may hold `null`. */
  datatype State = State(rules: seq<Option<Rule>>, counters: Counters, logs: seq<LogEntry>)

  predicate IsDigit(c: char)
  {
    '0' <= c <= '9'
  }

  /** `s[i..i+11]` has the shape DDDD-DD-DDT. */
  predicate IsoStampAt(s: string, i: int)
  {
    && 0 <= i && i + 11 <= |s|
    && IsDigit(s[i]) && IsDigit(s[i + 1]) && IsDigit(s[i + 2]) && IsDigit(s[i + 3])
    && s[i + 4] == '-'
    && IsDigit(s[i + 5]) && IsDigit(s[i + 6])
    && s[i + 7] == '-'
    && IsDigit(s[i + 8]) && IsDigit(s[i + 9])
    && s[i + 10] == 'T'
  }

  /** Some stamp starts at or after `from`. */
  function IsoStampFrom(s: string, from: nat): (r: bool)
    ensures r <==> exists k :: from <= k && IsoStampAt(s, k)
    decreases |s| - from
  {
    if from + 11 > |s| then false
    else IsoStampAt(s, from) || IsoStampFrom(s, from + 1)
  }

  /**
   * `isISODateString`: the unanchored test `/\d{4}-\d{2}-\d{2}T/`. A string
   * shorter than 11 characters, such as a normalised YYYY-MM-DD date, never
   * passes.
   */
  function IsIsoDateString(s: string): (r: bool)
    ensures r <==> exists k :: IsoStampAt(s, k)
    ensures |s| < 11 ==> !r
  {
    IsoStampFrom(s, 0)
  }

  /** `slice(0, 10)`. */
  function FirstTen(s: string): string
  {
    if |s| <= 10 then s else s[..10]
  }

  /**
   * The migration inside `getState`: a `lastReset` that looks like a full
   * timestamp is replaced by the first ten characters of `reparse` of it.
   * `reparse` stands for `new Date(x).toISOString()`, `None` when that throws,
   * in which case the error is swallowed and the counters stay as they were.
   */
  function MigrateCounters(c: Counters, reparse: string -> Option<string>): (r: Counters)
    ensures r.deletedCount == c.deletedCount
    ensures r.lastReset != c.lastReset ==> IsIsoDateString(c.lastReset) && |r.lastReset| <= 10
    ensures IsIsoDateString(c.lastReset) && reparse(c.lastReset).Some? ==> !IsIsoDateString(r.lastReset)
    ensures !IsIsoDateString(c.lastReset) ==> r == c
    ensures IsIsoDateString(c.lastReset) && reparse(c.lastReset).None? ==> r == c
    ensures IsIsoDateString(c.lastReset) && reparse(c.lastReset).Some? ==>
              var iso := reparse(c.lastReset).value;
              r.lastReset <= iso && |r.lastReset| == (if |iso| < 10 then |iso| else 10)
  {
    if IsIsoDateString(c.lastReset) then
      match reparse(c.lastReset)
      case None => c
      case Some(iso) => c.(lastReset := FirstTen(iso))
    else c
  }

  /** `getState`: the stored state with its counters migrated (and written back). */
  function Load(st: State, reparse: string -> Option<string>): (r: State)
    ensures r.rules == st.rules && r.logs == st.logs
    ensures r.counters.deletedCount == st.counters.deletedCount
    ensures r.counters == MigrateCounters(st.counters, reparse)
    ensures !IsIsoDateString(st.counters.lastReset) ==> r == st
  {
    st.(counters := MigrateCounters(st.counters, reparse))
  }

  /** Reading twice is reading once: a migrated `lastReset` is never migrated again. */
  lemma LoadIdempotent(st: State, reparse: string -> Option<string>)
    ensures Load(Load(st, reparse), reparse) == Load(st, reparse)
  {
  }

  const ThirtyDaysMs: int := 30 * 24 * 60 * 60 * 1000

  /** The entry counts towards `last30Count` at time `now`. */
  predicate Recent(e: LogEntry, now: int)
  {
    e.ts >= now - ThirtyDaysMs
  }

  /** `logs.filter(e => e.ts >= cutoff).length` with `cutoff = now - 30 days`. */
  function Last30Count(logs: seq<LogEntry>, now: int): (n: nat)
    ensures n <= |logs|
  {
    if |logs| == 0 then 0
    else Last30Count(logs[..|logs| - 1], now) + (if Recent(logs[|logs| - 1], now) then 1 else 0)
  }

  /**
   * `last30Count` is the number of log positions whose timestamp is at or
   * after `now - 2592000000`: the bound is inclusive and there is no upper bound.
   */
  lemma {:induction false} Last30CountCountsRecent(logs: seq<LogEntry>, now: int)
    ensures Last30Count(logs, now) == |set i | 0 <= i < |logs| && Recent(logs[i], now)|
  {
    if |logs| > 0 {
      var init := logs[..|logs| - 1];
      Last30CountCountsRecent(init, now);
      var before := set i | 0 <= i < |init| && Recent(init[i], now);
      var earlier := set i | 0 <= i < |logs| - 1 && Recent(logs[i], now);
      assert before == earlier;
      var after := set i | 0 <= i < |logs| && Recent(logs[i], now);
      if Recent(logs[|logs| - 1], now) {
        assert after == earlier + {|logs| - 1};
      } else {
        assert after == earlier;
      }
    }
  }

  /** Appending one entry raises `last30Count` by one exactly when the entry is recent. */
  lemma Last30CountAppend(logs: seq<LogEntry>, e: LogEntry, now: int)
    ensures Last30Count(logs + [e], now) == Last30Count(logs, now) + (if Recent(e, now) then 1 else 0)
  {
    assert (logs + [e])[..|logs|] == logs;
  }
}

=== FILE: text.dfy ===
/**
 * Character and string helpers for the matcher and the commands. Case folding
 * and white space are the ASCII ones: the extension's RegExp `i` flag and
 * `String.prototype.trim` are approximated on that subset.
 */
module Text {

  /** ASCII lower-casing; every other character is left as it is. */
  function Lower(c: char): char
  {
    if 'A' <= c <= 'Z' then (c as int + 32) as char else c
  }

  /** The two characters are equal once ASCII case is ignored. */
  predicate SameLetter(a: char, b: char)
  {
    Lower(a) == Lower(b)
  }

  /** The two strings are equal once ASCII case is ignored. */
  predicate SameText(a: string, b: string)
  {
    |a| == |b| && forall i :: 0 <= i < |a| ==> SameLetter(a[i], b[i])
  }

  /** The ASCII white space that `trim` removes: space, tab, LF, VT, FF, CR. */
  predicate IsSpace(c: char)
  {
    c == ' ' || c == '\t' || c == '\n' || c == '\r' || c as int == 11 || c as int == 12
  }

  predicate AllSpace(s: string)
  {
    forall i :: 0 <= i < |s| ==> IsSpace(s[i])
  }

  /** Length of the run of white space that starts at index `b`. */
  function SpacesFrom(s: string, b: nat): (n: nat)
    requires b <= |s|
    ensures b + n <= |s|
    ensures forall k :: b <= k < b + n ==> IsSpace(s[k])
    ensures b + n < |s| ==> !IsSpace(s[b + n])
    decreases |s| - b
  {
    if b < |s| && IsSpace(s[b]) then SpacesFrom(s, b + 1) + 1 else 0
  }

  /** Length of the run of white space that ends just before index `e`. */
  function SpacesBefore(s: string, e: nat): (n: nat)
    requires e <= |s|
    ensures n <= e
    ensures forall k :: e - n <= k < e ==> IsSpace(s[k])
    ensures n < e ==> !IsSpace(s[e - n - 1])
  {
    if e > 0 && IsSpace(s[e - 1]) then SpacesBefore(s, e - 1) + 1 else 0
  }

  /**
   * `String.prototype.trim`: the result is a slice of `s` that drops only
   * white space, and it neither starts nor ends with white space, so it is the
   * largest such slice.
   */
  function Trim(s: string): (r: string)
    ensures exists i, j :: 0 <= i <= j <= |s| && r == s[i..j] && AllSpace(s[..i]) && AllSpace(s[j..])
    ensures r == [] || (!IsSpace(r[0]) && !IsSpace(r[|r| - 1]))
  {
    var i := SpacesFrom(s, 0);
    if i == |s| then
      assert AllSpace(s[..i]) && AllSpace(s[|s|..]);
      []
    else
      var j := |s| - SpacesBefore(s, |s|);
      assert i < j;
      assert AllSpace(s[..i]) && AllSpace(s[j..]);
      s[i..j]
  }

  /** A string that neither starts nor ends with white space is its own trim. */
  lemma TrimUnchanged(s: string)
    requires s != [] && !IsSpace(s[0]) && !IsSpace(s[|s| - 1])
    ensures Trim(s) == s
  {
    assert s[0..] == s && s[..|s|] == s;
  }

  /** Trimming leaves nothing exactly when the text is all white space. */
  lemma TrimEmptyIff(s: string)
    ensures Trim(s) == [] <==> AllSpace(s)
  {
    var i := SpacesFrom(s, 0);
    if i < |s| {
      assert !IsSpace(s[i]);
    }
  }

  /** `s` starts with `prefix`, compared exactly. */
  predicate HasPrefix(s: string, prefix: string)
  {
    |prefix| <= |s| && s[..|prefix|] == prefix
  }
}
